=== FILE: README.md ===
# gestor_chatbot_api — client lifecycle manager, in Dafny

The service is an Express server (`setup.js`) that provisions and supervises
WhatsApp chat-bot instances ("clients"). For each client it copies a bot
template into `cliente_<id>_<instance_id>`, writes the instance's `.env`,
starts the bot under the PM2 process supervisor as
`api-bot-<name>-<instance_id>` and saves PM2's process list. Other endpoints
start, stop, reset and delete instances, report whether a bot's WhatsApp
session looks authenticated, and run bulk passes over every `bot-` process.
After a create or a delete the service schedules `pm2 start gestor_clientes`,
which restarts the manager itself. For the delete, the restart only happens
when the process-wide `activeRequests` counter is zero by then.

The model is split into these modules:

- `Effects` is the world the handlers act on. It holds the template
  directory, the instance directories (each with its `.env` text, its
  `bot_sessions/` entry count and whether it holds `start-pm2.sh`), PM2's live
  process list and PM2's saved list. Every shell command that changes state,
  and every `fs` call that can throw (the read and the write of `.env`, the
  removal of a directory), is a `Command`. The `fs.existsSync` checks cannot
  throw, so they are conditions in the handlers. The read-only commands are
  functions of the host instead: `ls -1 bot_sessions/ | wc -l` is
  `SessionCount` and `pm2 ls | grep 'bot-' | awk '{print $4}'` is
  `ListedBots`; they do not enter the trace. `Apply` gives its effect when it succeeds, and
  `Perform` runs a sequence of commands.
- Failure is a parameter. Each handler takes the set `failing` of commands
  that exit with an error. A failing command is still issued, so it appears
  in the trace, but it has no effect. A `try` block stops at its first
  failing command: `FirstFailure`, `Issued` and `Completed` say where it
  stopped and what ran. An `xargs` pass does not stop; it goes on after a
  failure.
- `EnvFile` models `updateEnvVariable` at the level of the JavaScript code.
  That covers the regular expression `^KEY=.*$` with the `m` flag, all four
  JavaScript line terminators, and the `$`-patterns that
  `String.prototype.replace` expands in its replacement text. `Upsert` is the
  same operation on the file's lines. The module proves when the two agree.
- `Requests` holds the request bodies, JavaScript truthiness (the
  `if (!a || !b …)` checks) and template-literal rendering of fields.
- `Naming` holds the two naming schemes. Create and change-status use the
  directory `cliente_<id>_<instance_id>`. Delete uses
  `cliente_<name>_<instance_id>`, which is create's directory only when
  `name` renders as `id`. All three use the process name
  `api-bot-<name>-<instance_id>`. Reset, bot-conextion and max-memory use
  `cliente_<id>` and `bot-<name>`. The module also has the `grep 'bot-'`
  filter and the session heuristic.
- `Gestor` has the class `ClientManager`, with fields `host`,
  `activeRequests`, `pending` (the `setTimeout` callbacks not yet fired) and
  `trace` (every command issued), and `exited` (the service process has
  ended), and one method per handler. `FireTimer` runs the oldest pending
  callback. Starting `gestor_clientes` restarts this very service, so the
  counter starts again at 0 and the other pending callbacks are lost. The
  callback has no `try`, so a failing `pm2 start` ends the process instead,
  and every pending callback with it.
- `Scenarios` has three request sequences that exhibit the counter finding
  below and how long its effect lasts.

The `create` handler answers 500 when the directory already exists: the
`throw` in `cloneAndSetupBot` is caught by the handler's own `catch`. A
400/409 answer would also be a reasonable reading of the intent. The model
follows the code: `Failed(AlreadyExists(dir))`, a 500 answer.

## Model

| member | source | states |
|---|---|---|
| `Requests.RenderEmpty` | setup.js:84-87 | A field that passes the presence check never renders as the empty string; only `""` renders as nothing. |
| `Naming.BotFilter` | setup.js:333 | `grep 'bot-'` keeps exactly the names that contain `bot-`, and only those. |
| `Naming.LegacyDirIsNotClientDir` | setup.js:142 | Reset never finds the directory that create made for the same id (`cliente_<id>` differs from `cliente_<id>_<instance_id>`). |
| `Naming.DeleteDirIsCreateDir` | setup.js:183 | Delete looks for `cliente_<name>_<instance_id>`. It finds the directory create made for the same instance exactly when `name` renders as `id` does. |
| `Naming.ClientDirInjective` | setup.js:20 | When the rendered ids hold no `_`, equal instance directory names mean equal id and instance id. |
| `Naming.ClientDirCollision` | setup.js:20 | Without that condition two tenants share a directory: `a_b`/`c` and `a`/`b_c` both give `cliente_a_b_c`. |
| `Naming.ProcessNamesAreBotNames` | setup.js:58 | Every PM2 name the service registers or controls (`api-bot-…` at create, `bot-…` at reset) is selected by the bulk passes. |
| `Naming.ManagerIsNotBotName` | setup.js:76 | The bulk passes never select `gestor_clientes` itself. |
| `Naming.ScriptTargetsOfLegacyName` | setup.js:354-363 | For a listed `bot-X` the max-memory pass looks in `cliente_X` and passes `bot-X` to the script. |
| `Naming.ScriptDirOfProcessName` | setup.js:354-356 | For a listed `api-bot-<n>-<i>` the first `bot-` is not at the start, so the pass looks in `cliente_api-<n>-<i>`. |
| `Naming.ScriptDirIsNoClientDir` | setup.js:354-358 | When the bot's rendered name and instance id hold no `_`, that directory is none that create makes. The pass then skips the bot unless another directory has that name: reset's scheme `cliente_<id>` with id `api-x-1` is the directory derived from `api-bot-x-1`. With a `_` it can also be another tenant's create directory: id `api-x-a` with instance `b` makes `cliente_api-x-a_b`, the directory derived from `api-bot-x-a_b`. |
| `EnvFile.ExpandLiteral` | setup.js:44 | A replacement text without `$` is inserted literally, whatever it replaces. |
| `EnvFile.ReplaceKeyLineOnLines` | setup.js:41-44 | On text made of lines, the multiline regex replacement rewrites exactly the first line that starts with `KEY=`. It gives `None` when no line does. |
| `EnvFile.UpdateEnvVariableIsUpsert` | setup.js:40-48 | For an LF-only file, a plain key and a value without `$` or line breaks, `updateEnvVariable` is `Upsert` on the lines. The text equals the joined lines, and splitting it gives them back. With no key line, the text is the old one plus `"\n" + KEY=value`. |
| `EnvFile.UpsertReplacesFirst` | setup.js:42-44 | When a key line exists, only the first one becomes `KEY=value`; every other line and the line count stay as they were. |
| `EnvFile.UpsertAppends` | setup.js:45-46 | With no key line, `KEY=value` is appended after the existing lines. |
| `EnvFile.UpsertCount` | setup.js:40-48 | After an upsert the key has exactly one line if it had none, and exactly as many as before otherwise. |
| `EnvFile.UpsertTwice` | setup.js:40-48 | Upserting the same key twice equals upserting the second value once. |
| `EnvFile.LookupUpsertSame` | setup.js:40-48 | After an upsert the file gives the key the new value. |
| `EnvFile.KeyLinesDisjoint` | setup.js:50-53 | No line sets two different plain keys. With `LookupUpsertOther` this is what lets `Gestor.ConfiguredEnvSetsKeys` compose the four updates. |
| `EnvFile.LookupUpsertOther` | setup.js:50-53 | Upserting one key leaves the value of every other plain key unchanged. |
| `EnvFile.DollarValueExpanded` | setup.js:44 | As written, the value `$&` turns a one-line file that sets the key into `KEY=` followed by the old line (`PORT=1` becomes `PORT=PORT=1`). `Upsert` gives `KEY=$&`, and the two results always differ. |
| `EnvFile.ExpandEscaped` | setup.js:44 | Doubling every `$` makes `replace` insert the text unchanged, whatever the match and its context. |
| `EnvFile.UpdateEnvVariableEscapedIsUpsert` | setup.js:40-48 | With the replacement text escaped, the upsert holds for every value on one line, `$` included, and the key reads back as the value. |
| `Effects.ControlEffect` | setup.js:122 | `pm2 start/restart/reload` leaves the named process online, `stop` leaves it stopped, and `delete` removes it. No other process's status changes, and only `delete` changes the list of names. |
| `Effects.LaunchOnline` | setup.js:66 | `pm2 start app.js --name n` leaves `n` online and every other process's status unchanged. |
| `Effects.StatusOfWithout` | setup.js:193 | Deleting one process leaves every other name's status as it was. |
| `Effects.SetStatusKeepsNames` | setup.js:333-334 | Stopping or starting keeps the list of process names, so the second `pm2 ls` of reboot lists the same bots. |
| `Effects.StopsAt` | setup.js:89-98 | A `try` block whose first failing command is step `i` issues steps `0..i` and completes steps `0..i-1`. |
| `Effects.RunsThrough` | setup.js:89-98 | A `try` block with no failing command issues and completes every step. |
| `Text.TrimEnds` | setup.js:349 | `trim` gives a piece `s[i..j]` of the text. Everything it cuts off in front of `i` and from `j` on is white space, and the piece neither starts nor ends with white space. |
| `Gestor.ListedItemsAreBots` | setup.js:346-349 | `output.trim().split('\n')` of the awk output (each listed name on a line of its own) gives the listed bot names in order, and one empty item when no bot is listed. The names are taken as awk columns: not empty, on one line, with no white space at either end. |
| `Gestor.ConfiguredEnvSetsKeys` | setup.js:50-53 | On an LF-only `.env` and values on one line without `$`, create's four updates leave `PORT`, `WEBHOOK`, `INSTANCE_ID` and `EMAIL_TOKEN` each reading back as its value, and every other plain key reading back as before. |
| `Gestor.CreatePlanEffect` | setup.js:28-71 | A create that runs through makes `cliente_<id>_<instance_id>` a copy of the template, with the four variables upserted into its `.env` and no sessions. It leaves `api-bot-<name>-<instance_id>` online and the saved list equal to the live list. No other directory or process changes. |
| `Gestor.ResetPlanEffect` | setup.js:150-163 | A reset that runs through clears the sessions of `cliente_<id>`, leaves `bot-<name>` online if PM2 knows it, and changes nothing else. |
| `Gestor.DeletePlanEffect` | setup.js:191-199 | A delete that runs through removes the directory and the process and saves the list. No other directory or process status changes. |
| `Gestor.StopsBeforeStarts` | setup.js:333-334 | In reboot's trace every stop comes before every start. The `i`-th listed name is stopped at position `i` and started at position `n + i`, in list order. A name listed twice is stopped and started twice. |
| `Gestor.ScriptPlanTargets` | setup.js:349-368 | The max-memory pass runs at most one script per listed item. It runs one only in a directory that holds `start-pm2.sh`, with the directory and argument derived from a listed item. |
| `Gestor.ScriptPlanSkips` | setup.js:358-367 | An item whose directory lacks the script leaves no trace, and the pass goes on with the next item. |
| `Gestor.ConcatStopsAt` | setup.js:350-368 | When the script for item `i` fails, the pass stops right after issuing it and runs nothing for the later items. |
| `Gestor.ClientManager.constructor` | setup.js:10 | A fresh manager has the counter at 0, no pending callbacks and an empty trace. |
| `Gestor.ClientManager.Exec` | setup.js:122 | `execSync` issues the command; it takes effect exactly when it does not fail, and the answer says which. |
| `Gestor.ClientManager.RunPlan` | setup.js:152-163 | A sequence of `execSync` calls in one `try` stops at the first failure. The trace gains the issued prefix and the host shows the completed prefix. |
| `Gestor.ClientManager.CloneAndSetup` | setup.js:19-78 | `cloneAndSetupBot` issues the create commands until the first failure, including the read of the copied `.env` when the template has one. It answers which command failed, and leaves the restart timer only when all ran. |
| `Gestor.ClientManager.CreateClient` | setup.js:80-99 | 400 exactly when a field is missing. When the directory exists, the answer is 500 (`AlreadyExists`) with nothing changed. Otherwise the handler runs the create commands until the first failure, and a 200 means the client was created as `CreatePlanEffect` says. |
| `Gestor.ClientManager.ChangeStatus` | setup.js:101-131 | 400 exactly when a field is missing; 404 exactly when `cliente_<id>_<instance_id>` is missing. Otherwise one `pm2 <command> api-bot-<name>-<instance_id>`: 200 with its effect, or 500 with no change. No other process's status ever changes. |
| `Gestor.ClientManager.Reset` | setup.js:133-170 | 400 and 404 as for change-status, but on `cliente_<id>`. Otherwise stop, clear sessions, start until the first failure. A 200 means the client was reset as `ResetPlanEffect` says. |
| `Gestor.ClientManager.Deregister` | setup.js:191-199 | The `try` block of delete: `pm2 delete`, `pm2 save`, remove the directory, stopping at the first failure. When all succeed the client is gone as `DeletePlanEffect` says. |
| `Gestor.ClientManager.Delete` | setup.js:172-215 | As written: 400 exactly when a field is missing, 404 exactly when `cliente_<name>_<instance_id>` is missing (keyed by name, not by id as in change-status), then the `try` block. The restart-if-idle timer is left only after a 200. The counter ends up one higher after a 404 or a 500, and unchanged after a 400 or a 200. |
| `Gestor.ClientManager.DeleteBalanced` | setup.js:172-215 | The same answers, trace, host and timers, with the counter unchanged on every path. |
| `Gestor.ClientManager.BotConnection` | setup.js:289-326 | Read-only. 400 and 404 as for reset; otherwise 200 with "connected" exactly when `bot_sessions/` holds at least two entries (0 when it is missing). |
| `Gestor.ClientManager.ForEachBot` | setup.js:333 | One `xargs` pass issues `pm2 <verb>` for every name in order, even after failures. It reports failure when any command failed. Each named process whose command succeeded ends at the target status; every other status, the directories and the saved list stay the same. |
| `Gestor.ClientManager.RebootAll` | setup.js:330-341 | Stop every listed bot; only when no stop failed, start every one, so the trace is then `RebootTrace` of the listing. A 200 means every listed bot is online. Unlisted processes, the directories and the saved list never change. |
| `Gestor.ClientManager.StartScripts` | setup.js:350-368 | The loop over the listed items: the trace gains the script runs up to the first failing one, and the answer names that command. |
| `Gestor.ClientManager.RunScriptFor` | setup.js:351-367 | One item: run its script when its directory holds one, skip it otherwise. The host does not change. |
| `Gestor.ClientManager.ApplyMaxMemory` | setup.js:343-376 | The max-memory pass over the items of the bot listing (as `ListedItemsAreBots` gives them), as `StartScripts` says, answering 200 or the first failing script. |
| `Gestor.ClientManager.FireTimer` | setup.js:204-210 | The oldest pending callback fires. After a create it always starts `gestor_clientes` (lines 75-77). After a delete it does so only when the counter is 0 at that moment. A start that succeeds restarts the service itself: the counter is back at 0 and every other pending callback is dropped. A failing start throws out of the callback: the service process ends, and every pending callback is dropped with it. |
| `Scenarios.LeakedCounter` | setup.js:181-209 | A 404 delete followed by a successful delete leaves the counter at 1, so the delete's timer never starts `gestor_clientes`. |
| `Scenarios.BalancedCounter` | setup.js:181-209 | With the counter lowered on every path, the same requests end with `gestor_clientes` started. |
| `Scenarios.RestartClearsCounter` | setup.js:75-77 | After a 404 delete, a create's timer starts `gestor_clientes` anyway; the restarted service counts from 0, so the next successful delete's timer starts it too. |

## Left out

- The `/clientes/status` and `/clientes/logs/:appName` handlers (lines 217-284). The first formats PM2's JSON with floating-point memory figures and locale dates. The second streams a child process's output for five seconds. Neither changes any state the other handlers read.
- Logging, `dotenv`, Express routing and JSON body parsing, and the text of the response messages. The model keeps only the HTTP status and the data the handlers return.
- `process.chdir`. The model gives every command the directory it runs in.
- The shell. Field values are pasted unquoted into shell command lines. The model treats each command as one structured command, so word splitting, quoting and command injection are not modelled.
- Path resolution. `path.join` resolves `/`, `.` and `..` inside the rendered fields. The model takes every rendered field as a single path segment, so the directory lemmas in `Naming` are about directory names. For example, ids `a/../b` and `c/../b` give different names for the same directory.
- The `pm2 ls` table. `grep 'bot-' | awk '{print $4}'` is modelled as the name column of the processes whose name contains `bot-`. A table line that matches `bot-` in another column is not modelled, and neither is a name with spaces.
- Gestor.ClientManager.Exec: a failing command has no effect at all, `CopyTemplate` and `RemoveDir` included. In the code, `rsync -a` (setup.js:29) can exit with an error after copying part of the tree, for example with exit 23 for a partial transfer. `fs.rmSync` (setup.js:199) can likewise remove part of a tree before throwing. After a failed copy the directory usually exists, so the code answers a retried create with 500 (setup.js:23-26), where the model's retry goes through. Likewise a failed removal can leave part of the directory behind.
- Effects.Launch: the model keeps one process per name, and starting a name PM2 already knows sets it online. PM2 registers a second process of the same name when `pm2 start app.js --name n` runs from another directory. Two creates with the same `name` and `instance_id` but different ids therefore make two processes, and a later stop or delete by that name acts on both.
- Gestor.ClientManager.FireTimer: once the service process has ended (`exited`), the model stops. Whether PM2 then brings it back, as it does by default for a process that crashes, is not modelled.
- The listing commands and `ls -1 bot_sessions/ | wc -l` are read-only. They are not `Command`s and never enter the trace.
- Whether `pm2 ls`, `grep` or `awk` can fail. A pass fails only through the commands `xargs` runs. `xargs` stopping early on exit status 255 is not modelled.
- `start-pm2.sh` is not part of this model. Running it is issued and may fail, but its effect on PM2 is not modelled.
- PM2's own behaviour beyond start, restart, reload, stop and delete. Other verbs from change-status succeed with no effect. A command naming an unknown process succeeds with no effect unless it is in `failing`.
- JSON values: fields are integers, strings, booleans, `null` or missing. Fractional numbers, numbers of 1e21 and above (which render in exponent form) and objects or arrays are not modelled.
- Concurrency between requests. `execSync` blocks the event loop, so each handler runs to completion. The timers are modelled explicitly, firing oldest first.
- CloneAndSetup reads the template's `.env` where the code reads the copy's. `rsync -a` makes the two equal; a copy that fails is covered because the plan then stops before the write.
- EnvFile.UpdateEnvVariableIsUpsert: the correspondence with `Upsert` needs an LF-only file and a value without `$` or line breaks. For other inputs the model still computes exactly what the regex replacement does, but no line-level statement is proved.
- Gestor.ClientManager.RebootAll: when a pass fails, the code's `catch` refers to an undefined `name`. It throws a `ReferenceError` inside an `async` handler. What follows depends on the Express and Node versions: under Express 4 the rejection goes unhandled, so the request gets no answer (Node before 15) or the process ends (Node 15 and later). Under Express 5 the error handler answers 500. The model answers `Failed(PassFailed(verb))`.
- Gestor.ClientManager.ApplyMaxMemory: the same undefined `name` in its `catch`. The model answers `Failed(CommandFailed(c))` where the code throws.

## Findings

| source | as written | input that shows it | evidently intended | confidence | as-written member | corrected member |
|---|---|---|---|---|---|---|
| setup.js:181-212 | The delete counter is raised before the directory check. The 404 return and the `catch` never lower it. | A delete of a missing client, then a successful delete: the counter is 1 when the delete's timer fires, so that timer, and the timer of every later delete until the manager next restarts (for example through a create's timer), does not start `gestor_clientes`. | Lower the counter on every path after the increment, as in a `finally`. | not executed; high | `Gestor.ClientManager.Delete`, shown by `Scenarios.LeakedCounter` | `Gestor.ClientManager.DeleteBalanced`, with `Scenarios.BalancedCounter` |
| setup.js:44 | The replacement `${variable}=${value}` goes to `String.prototype.replace`, which expands `$&`, `` $` ``, `$'` and `$$` in it. | `.env` text `PORT=1`, value `$&`: the line becomes `PORT=PORT=1`. | Write `KEY=value` verbatim, by escaping `$` as `$$` or passing a function. | not executed; medium | `EnvFile.UpdateEnvVariable`, shown by `EnvFile.DollarValueExpanded` | `EnvFile.UpdateEnvVariableEscaped`, with `EnvFile.UpdateEnvVariableEscapedIsUpsert` |

The handlers keep the code's behaviour, so create configures the `.env` with
`UpdateEnvVariable` as written. The corrected definitions stand beside the
as-written ones, each with the property proved.

=== FILE: Effects.dfy ===
/**
 * The world outside the service, as far as the handlers touch it: the
 * template directory, the instance directories under the clients base path,
 * the process supervisor's (PM2's) process list and the list it saved with
 * `pm2 save`. Each shell command or filesystem call a handler issues is a
 * `Command`; `Apply` is what it does when it succeeds.
 */
module Effects {
  import opened Wrappers

  /**
   * What the model tracks of a directory laid out like the bot template: its
   * `.env` text (if the file exists), the number of entries in `bot_sessions/`
   * (if that directory exists) and whether it holds `start-pm2.sh`.
   */
  datatype Workspace = Workspace(env: Option<string>, sessions: Option<nat>, startScript: bool)

  /** What `ls -1 bot_sessions/ | wc -l` reports: 0 when the directory is missing. */
  function SessionCount(w: Workspace): nat {
    if w.sessions.Some? then w.sessions.value else 0
  }

  datatype ProcStatus = Online | Stopped
  datatype Proc = Proc(name: string, status: ProcStatus)

  /** The template, the instance directories by name, PM2's live list (in `pm2 ls` order) and its saved list. */
  datatype Host = Host(template: Workspace, clients: map<string, Workspace>, procs: seq<Proc>, saved: seq<Proc>)

  datatype Command =
    | CopyTemplate(dir: string)                 // rsync -a <template>/ <dir>/
    | ReadEnv(dir: string)                      // fs.readFileSync(<dir>/.env)
    | WriteEnv(dir: string, content: string)    // fs.writeFileSync(<dir>/.env, content)
    | RemoveSessions(dir: string)               // rm -rf bot_sessions, run in <dir>
    | RemoveDir(dir: string)                    // fs.rmSync(<dir>, { recursive, force })
    | StartApp(dir: string, name: string)       // pm2 start app.js --name <name> --max-memory-restart=2G, run in <dir>
    | Pm2(verb: string, name: string)           // pm2 <verb> <name>
    | SaveProcessList                           // pm2 save --force
    | RunStartScript(dir: string, arg: string)  // bash ./start-pm2.sh <arg>, run in <dir>

  /** The process names, in order. */
  function Names(ps: seq<Proc>): (ns: seq<string>)
    ensures |ns| == |ps|
    ensures forall i :: 0 <= i < |ps| ==> ns[i] == ps[i].name
  {
    seq(|ps|, i requires 0 <= i < |ps| => ps[i].name)
  }

  /** The status of the first process called `n`, if any. */
  function StatusOf(ps: seq<Proc>, n: string): (r: Option<ProcStatus>)
    ensures r.None? <==> n !in Names(ps)
  {
    if ps == [] then None
    else if ps[0].name == n then Some(ps[0].status)
    else
      assert Names(ps) == [ps[0].name] + Names(ps[1..]);
      StatusOf(ps[1..], n)
  }

  /** Every process called `n` gets status `st`; nothing else changes. */
  function SetStatus(ps: seq<Proc>, n: string, st: ProcStatus): seq<Proc> {
    seq(|ps|, i requires 0 <= i < |ps| => if ps[i].name == n then ps[i].(status := st) else ps[i])
  }

  /** The list without the processes called `n`. */
  function Without(ps: seq<Proc>, n: string): (r: seq<Proc>)
    ensures n !in Names(r)
    ensures forall p :: p in r <==> p in ps && p.name != n
  {
    if ps == [] then []
    else
      var rest := Without(ps[..|ps| - 1], n);
      var last := ps[|ps| - 1];
      assert ps == ps[..|ps| - 1] + [last];
      if last.name == n then rest else rest + [last]
  }

  /** `pm2 start app.js --name n`: `n` is online, registered at the end of the list if it was not there. */
  function Launch(ps: seq<Proc>, n: string): seq<Proc> {
    if n in Names(ps) then SetStatus(ps, n, Online) else ps + [Proc(n, Online)]
  }

  /** `pm2 <verb> <n>` on the live list, for the verbs the service uses. */
  function Control(ps: seq<Proc>, verb: string, n: string): seq<Proc> {
    if verb == "start" || verb == "restart" || verb == "reload" then SetStatus(ps, n, Online)
    else if verb == "stop" then SetStatus(ps, n, Stopped)
    else if verb == "delete" then Without(ps, n)
    else ps
  }

  /** The effect of a command that succeeds. */
  function Apply(h: Host, c: Command): Host {
    match c
    case CopyTemplate(d) => h.(clients := h.clients[d := h.template])
    case ReadEnv(_) => h
    case WriteEnv(d, content) =>
      if d in h.clients then h.(clients := h.clients[d := h.clients[d].(env := Some(content))]) else h
    case RemoveSessions(d) =>
      if d in h.clients then h.(clients := h.clients[d := h.clients[d].(sessions := None)]) else h
    case RemoveDir(d) => h.(clients := h.clients - {d})
    case StartApp(_, n) => h.(procs := Launch(h.procs, n))
    case Pm2(verb, n) => h.(procs := Control(h.procs, verb, n))
    case SaveProcessList => h.(saved := h.procs)
    case RunStartScript(_, _) => h
  }

  /** A `pm2` command that succeeds changes the process list and nothing else. */
  lemma ApplyPm2(h: Host, verb: string, n: string)
    ensures Apply(h, Pm2(verb, n)) == h.(procs := Control(h.procs, verb, n))
  {
  }

  /** The host after the commands `cs`, in order, all succeeded. */
  function Perform(h: Host, cs: seq<Command>): Host
    decreases |cs|
  {
    if cs == [] then h else Apply(Perform(h, cs[..|cs| - 1]), cs[|cs| - 1])
  }

  /** The position of the first failing command of `plan`, or |plan| when all succeed. */
  function FirstFailure(plan: seq<Command>, failing: set<Command>): (k: nat)
    ensures k <= |plan|
    ensures forall j :: 0 <= j < k ==> plan[j] !in failing
    ensures k < |plan| ==> plan[k] in failing
  {
    if plan == [] || plan[0] in failing then 0 else 1 + FirstFailure(plan[1..], failing)
  }

  /** The commands of a sequential plan that complete before the first failure. */
  function Completed(plan: seq<Command>, failing: set<Command>): seq<Command> {
    plan[..FirstFailure(plan, failing)]
  }

  /** The commands of a sequential plan that are issued: those that complete, then the one that fails. */
  function Issued(plan: seq<Command>, failing: set<Command>): seq<Command> {
    var k := FirstFailure(plan, failing);
    if k < |plan| then plan[..k + 1] else plan
  }

  /** A plan that first fails at step `i` issues its first `i + 1` commands and completes its first `i`. */
  lemma StopsAt(plan: seq<Command>, failing: set<Command>, i: nat)
    requires i < |plan| && plan[i] in failing
    requires forall j :: 0 <= j < i ==> plan[j] !in failing
    ensures FirstFailure(plan, failing) == i
    ensures Issued(plan, failing) == plan[..i + 1]
    ensures Completed(plan, failing) == plan[..i]
  {
    var k := FirstFailure(plan, failing);
    assert !(k < i) && !(i < k);
  }

  /** A plan none of whose commands fails is issued and completed whole. */
  lemma RunsThrough(plan: seq<Command>, failing: set<Command>)
    requires forall j :: 0 <= j < |plan| ==> plan[j] !in failing
    ensures FirstFailure(plan, failing) == |plan|
    ensures Issued(plan, failing) == plan && Completed(plan, failing) == plan
  {
    assert plan[..|plan|] == plan;
  }

  /** Performing one more step of a plan applies that step to the host so far. */
  lemma PerformStep(h: Host, plan: seq<Command>, i: nat)
    requires i < |plan|
    ensures Perform(h, plan[..i + 1]) == Apply(Perform(h, plan[..i]), plan[i])
  {
    assert plan[..i + 1][..i] == plan[..i];
  }

  /** Performing two plans one after the other is performing the second from where the first left the host. */
  lemma {:induction false} PerformAppend(h: Host, a: seq<Command>, b: seq<Command>)
    ensures Perform(h, a + b) == Perform(Perform(h, a), b)
    decreases |b|
  {
    if b == [] {
      assert a + b == a;
    } else {
      var b' := b[..|b| - 1];
      assert (a + b)[..|a + b| - 1] == a + b';
      assert (a + b)[|a + b| - 1] == b[|b| - 1];
      PerformAppend(h, a, b');
    }
  }

  /** A three-step plan performs its steps in order. */
  lemma PerformThree(h: Host, c0: Command, c1: Command, c2: Command)
    ensures Perform(h, [c0, c1, c2]) == Apply(Apply(Apply(h, c0), c1), c2)
  {
    var p := [c0, c1, c2];
    assert p[..0] == [];
    PerformStep(h, p, 0);
    PerformStep(h, p, 1);
    PerformStep(h, p, 2);
    assert p[..3] == p;
  }

  /** A five-step plan performs its steps in order. */
  lemma PerformFive(h: Host, c0: Command, c1: Command, c2: Command, c3: Command, c4: Command)
    ensures Perform(h, [c0, c1, c2, c3, c4]) == Apply(Apply(Apply(Apply(Apply(h, c0), c1), c2), c3), c4)
  {
    var p := [c0, c1, c2, c3, c4];
    assert p[..0] == [];
    PerformStep(h, p, 0);
    PerformStep(h, p, 1);
    PerformStep(h, p, 2);
    PerformStep(h, p, 3);
    PerformStep(h, p, 4);
    assert p[..5] == p;
  }

  /** Starting and stopping keep the list of names as it was; a `grep` over `pm2 ls` sees the same processes. */
  lemma SetStatusKeepsNames(ps: seq<Proc>, n: string, st: ProcStatus)
    ensures Names(SetStatus(ps, n, st)) == Names(ps)
    ensures n in Names(ps) ==> StatusOf(SetStatus(ps, n, st), n) == Some(st)
    ensures forall m :: m != n ==> StatusOf(SetStatus(ps, n, st), m) == StatusOf(ps, m)
  {
    var r := SetStatus(ps, n, st);
    assert Names(r) == Names(ps);
    StatusOfSetStatus(ps, n, st);
  }

  lemma {:induction false} StatusOfSetStatus(ps: seq<Proc>, n: string, st: ProcStatus)
    ensures n in Names(ps) ==> StatusOf(SetStatus(ps, n, st), n) == Some(st)
    ensures forall m :: m != n ==> StatusOf(SetStatus(ps, n, st), m) == StatusOf(ps, m)
  {
    if ps != [] {
      var r := SetStatus(ps, n, st);
      assert r[1..] == SetStatus(ps[1..], n, st);
      StatusOfSetStatus(ps[1..], n, st);
      assert Names(ps) == [ps[0].name] + Names(ps[1..]);
    }
  }

  /** After `Launch`, the process is online and every other process keeps its status. */
  lemma LaunchOnline(ps: seq<Proc>, n: string)
    ensures StatusOf(Launch(ps, n), n) == Some(Online)
    ensures forall m :: m != n ==> StatusOf(Launch(ps, n), m) == StatusOf(ps, m)
  {
    if n in Names(ps) {
      SetStatusKeepsNames(ps, n, Online);
    } else {
      StatusOfSnoc(ps, Proc(n, Online));
    }
  }

  lemma {:induction false} StatusOfSnoc(ps: seq<Proc>, p: Proc)
    ensures p.name !in Names(ps) ==> StatusOf(ps + [p], p.name) == Some(p.status)
    ensures forall m :: m != p.name ==> StatusOf(ps + [p], m) == StatusOf(ps, m)
  {
    if ps != [] {
      assert (ps + [p])[1..] == ps[1..] + [p];
      assert Names(ps) == [ps[0].name] + Names(ps[1..]);
      StatusOfSnoc(ps[1..], p);
    }
  }

  /** The status of a name in a list with one more process at its end. */
  lemma {:induction false} StatusOfAppend(ps: seq<Proc>, p: Proc, m: string)
    ensures StatusOf(ps + [p], m) ==
            if m in Names(ps) then StatusOf(ps, m) else if p.name == m then Some(p.status) else None
  {
    if ps != [] {
      assert (ps + [p])[1..] == ps[1..] + [p];
      assert Names(ps) == [ps[0].name] + Names(ps[1..]);
      StatusOfAppend(ps[1..], p, m);
    } else {
      assert Names(ps) == [];
    }
  }

  /** Deleting one process leaves the status of every other name as it was. */
  lemma {:induction false} StatusOfWithout(ps: seq<Proc>, n: string, m: string)
    requires m != n
    ensures StatusOf(Without(ps, n), m) == StatusOf(ps, m)
    decreases |ps|
  {
    if ps != [] {
      var init := ps[..|ps| - 1];
      var last := ps[|ps| - 1];
      assert ps == init + [last];
      StatusOfWithout(init, n, m);
      StatusOfAppend(init, last, m);
      if last.name != n {
        StatusOfAppend(Without(init, n), last, m);
      }
    }
  }

  /** What `pm2 <verb> <n>` does to `n`, and that it leaves every other process's status alone. */
  lemma ControlEffect(ps: seq<Proc>, verb: string, n: string)
    ensures (verb == "start" || verb == "restart" || verb == "reload") && n in Names(ps) ==>
              StatusOf(Control(ps, verb, n), n) == Some(Online)
    ensures verb == "stop" && n in Names(ps) ==> StatusOf(Control(ps, verb, n), n) == Some(Stopped)
    ensures verb == "delete" ==> n !in Names(Control(ps, verb, n))
    ensures verb != "delete" ==> Names(Control(ps, verb, n)) == Names(ps)
    ensures forall m :: m != n ==> StatusOf(Control(ps, verb, n), m) == StatusOf(ps, m)
  {
    if verb == "start" || verb == "restart" || verb == "reload" {
      SetStatusKeepsNames(ps, n, Online);
    } else if verb == "stop" {
      SetStatusKeepsNames(ps, n, Stopped);
    } else if verb == "delete" {
      forall m | m != n
        ensures StatusOf(Control(ps, verb, n), m) == StatusOf(ps, m)
      {
        StatusOfWithout(ps, n, m);
      }
    }
  }
}

=== FILE: EnvFile.dfy ===
/**
 * The instance configuration editor: `updateEnvVariable` of `cloneAndSetupBot`,
 * which upserts one `KEY=value` line in the text of a `.env` file.
 *
 * `UpdateEnvVariable` follows the JavaScript code literally: the test and the
 * replacement use the regular expression `^KEY=.*$` with the `m` flag, and
 * `String.prototype.replace` expands `$`-patterns in the replacement text.
 * `Upsert` is the same operation stated on the file's lines; the theorem
 * `UpdateEnvVariableIsUpsert` says when the two agree, and the lemmas about
 * `Upsert` give its meaning: replace the first line for the key, or append one.
 */
module EnvFile {
  import opened Wrappers
  import opened Text

  /** A character the keys are made of; none is a regex metacharacter, '=' or a line terminator. */
  predicate IsWordChar(c: char) {
    'A' <= c <= 'Z' || 'a' <= c <= 'z' || '0' <= c <= '9' || c == '_'
  }

  /** A key that can be pasted into the regular expression as it is. */
  predicate PlainKey(k: string) {
    |k| > 0 && forall i :: 0 <= i < |k| ==> IsWordChar(k[i])
  }

  /** A value that ends up verbatim on one line: no line terminator, no `$`. */
  predicate PlainValue(v: string) {
    NoLineTerminator(v) && '$' !in v
  }

  // ---------------------------------------------------------------------------
  // The JavaScript code, as written
  // ---------------------------------------------------------------------------

  /** Where the line starting at `s[0]` ends: the first line terminator, or |s|. */
  function LineEnd(s: string): (e: nat)
    ensures e <= |s|
    ensures forall i :: 0 <= i < e ==> !IsLineTerminator(s[i])
    ensures e < |s| ==> IsLineTerminator(s[e])
  {
    if s == [] || IsLineTerminator(s[0]) then 0 else 1 + LineEnd(s[1..])
  }

  /**
   * The replacement text `repl` with its `$`-patterns expanded, as
   * `String.prototype.replace` does for a regular expression without capture
   * groups: `$$` is `$`, `$&` the matched text, `` $` `` the text before the
   * match, `$'` the text after it; any other `$` stays as it is.
   */
  function Expand(repl: string, matched: string, before: string, after: string): string
    decreases |repl|
  {
    if repl == [] then
      []
    else
      var n := if IsPattern(repl) then 2 else 1;
      Piece(repl, matched, before, after) + Expand(repl[n..], matched, before, after)
  }

  /** `repl` starts with one of the four `$`-patterns. */
  predicate IsPattern(repl: string) {
    |repl| >= 2 && repl[0] == '$' && (repl[1] == '$' || repl[1] == '&' || repl[1] == '`' || repl[1] == '\'')
  }

  /** What the first pattern or character of a nonempty `repl` expands to. */
  function Piece(repl: string, matched: string, before: string, after: string): string
    requires repl != []
  {
    if !IsPattern(repl) then [repl[0]]
    else if repl[1] == '$' then "$"
    else if repl[1] == '&' then matched
    else if repl[1] == '`' then before
    else after
  }

  /** A replacement text without `$` is inserted literally. */
  lemma {:induction false} ExpandLiteral(repl: string, matched: string, before: string, after: string)
    requires '$' !in repl
    ensures Expand(repl, matched, before, after) == repl
    decreases |repl|
  {
    if repl != [] {
      assert repl[0] != '$';
      assert forall c :: c in repl[1..] ==> c in repl;
      ExpandLiteral(repl[1..], matched, before, after);
    }
  }

  /**
   * `s.replace(/^KEY=.*$/m, repl)`, where `before` is the text that precedes
   * `s` in the whole string. `None` when the expression matches nowhere in
   * `s`. A match can only begin at the start of `s` or just after a line
   * terminator (`^` under the `m` flag); it runs to the next line terminator
   * or to the end (`.*$`); only the first match is replaced.
   */
  function ReplaceKeyLine(before: string, s: string, key: string, repl: string): (r: Option<string>)
    decreases |s|
  {
    var e := LineEnd(s);
    if StartsWith(s, key + "=") then
      Some(Expand(repl, s[..e], before, s[e..]) + s[e..])
    else if e == |s| then
      None
    else
      match ReplaceKeyLine(before + s[..e + 1], s[e + 1..], key, repl)
      case None => None
      case Some(rest) => Some(s[..e + 1] + rest)
  }

  /**
   * `updateEnvVariable(variable, value)` applied to the file text `content`:
   * when `^variable=.*$` matches, the first match is replaced by
   * `variable=value`; otherwise `"\n" + variable + "=" + value` is appended.
   */
  function UpdateEnvVariable(content: string, key: string, value: string): string {
    var line := key + "=" + value;
    match ReplaceKeyLine("", content, key, line)
    case Some(r) => r
    case None => content + "\n" + line
  }

  // ---------------------------------------------------------------------------
  // The same operation on lines
  // ---------------------------------------------------------------------------

  /** A line that sets `key`. */
  predicate IsKeyLine(line: string, key: string) {
    StartsWith(line, key + "=")
  }

  /** Index of the first line that sets `key`, or |ls| when none does. */
  function FindKeyLine(ls: seq<string>, key: string): (i: nat)
    ensures i <= |ls|
    ensures forall j :: 0 <= j < i ==> !IsKeyLine(ls[j], key)
    ensures i < |ls| ==> IsKeyLine(ls[i], key)
  {
    if ls == [] then 0
    else if IsKeyLine(ls[0], key) then 0
    else 1 + FindKeyLine(ls[1..], key)
  }

  /** Replace the first line setting `key` by `key=value`, or append that line. */
  function Upsert(ls: seq<string>, key: string, value: string): seq<string> {
    var i := FindKeyLine(ls, key);
    if i < |ls| then ls[i := key + "=" + value] else ls + [key + "=" + value]
  }

  /** How many lines set `key`. */
  function CountKeyLines(ls: seq<string>, key: string): nat {
    if ls == [] then 0
    else CountKeyLines(ls[..|ls| - 1], key) + (if IsKeyLine(ls[|ls| - 1], key) then 1 else 0)
  }

  /** The value the file gives `key`: what follows `key=` on the first line setting it. */
  function Lookup(ls: seq<string>, key: string): Option<string> {
    var i := FindKeyLine(ls, key);
    if i < |ls| then Some(ls[i][|key| + 1..]) else None
  }

  /** When some line sets `key`, only the first such line changes, to `key=value`. */
  lemma UpsertReplacesFirst(ls: seq<string>, key: string, value: string, i: nat)
    requires i < |ls| && IsKeyLine(ls[i], key)
    requires forall j :: 0 <= j < i ==> !IsKeyLine(ls[j], key)
    ensures |Upsert(ls, key, value)| == |ls|
    ensures Upsert(ls, key, value)[i] == key + "=" + value
    ensures forall j :: 0 <= j < |ls| && j != i ==> Upsert(ls, key, value)[j] == ls[j]
  {
  }

  /** When no line sets `key`, every line is kept in order and `key=value` is added at the end. */
  lemma UpsertAppends(ls: seq<string>, key: string, value: string)
    requires forall j :: 0 <= j < |ls| ==> !IsKeyLine(ls[j], key)
    ensures Upsert(ls, key, value) == ls + [key + "=" + value]
  {
  }

  /** Two distinct plain keys never set the same line. */
  lemma {:induction false} KeyLinesDisjoint(line: string, k1: string, k2: string)
    requires PlainKey(k1) && PlainKey(k2) && k1 != k2
    ensures IsKeyLine(line, k1) ==> !IsKeyLine(line, k2)
  {
    if IsKeyLine(line, k1) {
      var p1, p2 := k1 + "=", k2 + "=";
      assert line[..|p1|] == p1;
      if |k1| < |k2| {
        assert line[|k1|] == '=';
        assert IsWordChar(k2[|k1|]);
        assert p2[|k1|] != line[|k1|];
      } else if |k2| < |k1| {
        assert IsWordChar(k1[|k2|]);
        assert line[|k2|] == p1[|k2|] == k1[|k2|] != '=';
        assert p2[|k2|] != line[|k2|];
      } else {
        assert line[..|k1|] == k1;
        assert exists j :: 0 <= j < |k1| && k1[j] != k2[j];
        var j :| 0 <= j < |k1| && k1[j] != k2[j];
        assert p2[j] != line[j];
      }
    }
  }

  lemma {:induction false} CountSnoc(ls: seq<string>, x: string, key: string)
    ensures CountKeyLines(ls + [x], key) == CountKeyLines(ls, key) + (if IsKeyLine(x, key) then 1 else 0)
  {
    assert (ls + [x])[..|ls|] == ls;
  }

  /** Overwriting one line by another that sets `key` exactly when it did keeps the count. */
  lemma {:induction false} CountUpdate(ls: seq<string>, i: nat, x: string, key: string)
    requires i < |ls|
    requires IsKeyLine(x, key) == IsKeyLine(ls[i], key)
    ensures CountKeyLines(ls[i := x], key) == CountKeyLines(ls, key)
    decreases |ls|
  {
    var n := |ls| - 1;
    var ls' := ls[i := x];
    if i < n {
      assert ls'[..n] == ls[..n][i := x];
      CountUpdate(ls[..n], i, x, key);
    } else {
      assert ls'[..n] == ls[..n];
    }
  }

  lemma {:induction false} CountNone(ls: seq<string>, key: string)
    requires forall j :: 0 <= j < |ls| ==> !IsKeyLine(ls[j], key)
    ensures CountKeyLines(ls, key) == 0
  {
    if ls != [] {
      CountNone(ls[..|ls| - 1], key);
    }
  }

  /** Upsert never adds a duplicate: the number of lines setting `key` becomes max(1, what it was). */
  lemma UpsertCount(ls: seq<string>, key: string, value: string)
    ensures CountKeyLines(Upsert(ls, key, value), key) == if CountKeyLines(ls, key) == 0 then 1 else CountKeyLines(ls, key)
  {
    var line := key + "=" + value;
    assert IsKeyLine(line, key);
    var i := FindKeyLine(ls, key);
    if i < |ls| {
      CountUpdate(ls, i, line, key);
      CountPositive(ls, i, key);
    } else {
      CountNone(ls, key);
      CountSnoc(ls, line, key);
    }
  }

  lemma {:induction false} CountPositive(ls: seq<string>, i: nat, key: string)
    requires i < |ls| && IsKeyLine(ls[i], key)
    ensures CountKeyLines(ls, key) > 0
    decreases |ls|
  {
    if i < |ls| - 1 {
      CountPositive(ls[..|ls| - 1], i, key);
    }
  }

  /** Upserting the same key twice is the same as upserting it once with the last value. */
  lemma UpsertTwice(ls: seq<string>, key: string, v1: string, v2: string)
    ensures Upsert(Upsert(ls, key, v1), key, v2) == Upsert(ls, key, v2)
  {
    var once := Upsert(ls, key, v1);
    var i := FindKeyLine(ls, key);
    assert IsKeyLine(key + "=" + v1, key);
    assert IsKeyLine(once[i], key);
    assert forall j :: 0 <= j < i ==> once[j] == ls[j];
    assert FindKeyLine(once, key) == i;
  }

  /** After an upsert, the file gives `key` the new value. */
  lemma LookupUpsertSame(ls: seq<string>, key: string, value: string)
    ensures Lookup(Upsert(ls, key, value), key) == Some(value)
  {
    var line := key + "=" + value;
    var r := Upsert(ls, key, value);
    var i := FindKeyLine(ls, key);
    assert IsKeyLine(line, key);
    assert IsKeyLine(r[i], key);
    assert forall j :: 0 <= j < i ==> r[j] == ls[j];
    assert FindKeyLine(r, key) == i;
    assert line[|key| + 1..] == value;
  }

  /** An upsert leaves the value of every other plain key as it was. */
  lemma LookupUpsertOther(ls: seq<string>, key: string, value: string, other: string)
    requires PlainKey(key) && PlainKey(other) && key != other
    ensures Lookup(Upsert(ls, key, value), other) == Lookup(ls, other)
  {
    var line := key + "=" + value;
    assert IsKeyLine(line, key);
    KeyLinesDisjoint(line, key, other);
    var i := FindKeyLine(ls, key);
    var r := Upsert(ls, key, value);
    var k := FindKeyLine(ls, other);
    if i < |ls| {
      KeyLinesDisjoint(ls[i], key, other);
      assert forall j :: 0 <= j < |ls| ==> (IsKeyLine(r[j], other) <==> IsKeyLine(ls[j], other));
      assert FindKeyLine(r, other) == k;
    } else {
      assert forall j :: 0 <= j < |ls| ==> r[j] == ls[j];
      assert FindKeyLine(r, other) == k || (k == |ls| && FindKeyLine(r, other) == |r|);
    }
  }

  // ---------------------------------------------------------------------------
  // The JavaScript code agrees with the line view
  // ---------------------------------------------------------------------------

  lemma {:induction false} LineEndAt(line: string, rest: string)
    requires NoLineTerminator(line)
    requires rest == [] || IsLineTerminator(rest[0])
    ensures LineEnd(line + rest) == |line|
  {
    var s := line + rest;
    assert forall i :: 0 <= i < |line| ==> s[i] == line[i];
    assert |line| < |s| ==> s[|line|] == rest[0];
  }

  lemma {:induction false} StartsWithLine(line: string, rest: string, p: string)
    requires NoLineTerminator(p)
    requires rest == [] || IsLineTerminator(rest[0])
    ensures StartsWith(line + rest, p) <==> StartsWith(line, p)
  {
    var s := line + rest;
    if |p| > |line| {
      if rest != [] && |p| <= |s| {
        assert s[|line|] == rest[0];
        assert !IsLineTerminator(p[|line|]);
        assert s[..|p|][|line|] != p[|line|];
      }
    } else {
      assert s[..|p|] == line[..|p|];
    }
  }

  lemma {:induction false} PlainKeyLine(key: string)
    requires PlainKey(key)
    ensures NoLineTerminator(key + "=")
  {
    var p := key + "=";
    forall i | 0 <= i < |p| ensures !IsLineTerminator(p[i]) {
      if i < |key| { assert IsWordChar(key[i]); }
    }
  }

  /** One step of the replacement on text made of lines: the first line either matches or is skipped whole. */
  lemma {:induction false} ReplaceKeyLineStep(before: string, ls: seq<string>, key: string, repl: string)
    requires |ls| >= 1 && NoLineTerminator(ls[0])
    requires PlainKey(key)
    ensures var rest := if |ls| == 1 then "" else "\n" + Join(ls[1..]);
            ReplaceKeyLine(before, Join(ls), key, repl) ==
              if IsKeyLine(ls[0], key) then Some(Expand(repl, ls[0], before, rest) + rest)
              else if |ls| == 1 then None
              else match ReplaceKeyLine(before + (ls[0] + "\n"), Join(ls[1..]), key, repl)
                   case None => None
                   case Some(t) => Some(ls[0] + "\n" + t)
  {
    var s := Join(ls);
    var rest := if |ls| == 1 then "" else "\n" + Join(ls[1..]);
    assert s == ls[0] + rest;
    LineEndAt(ls[0], rest);
    PlainKeyLine(key);
    StartsWithLine(ls[0], rest, key + "=");
    var e := |ls[0]|;
    assert s[..e] == ls[0] && s[e..] == rest;
    if |ls| > 1 {
      assert s[e + 1..] == Join(ls[1..]);
      assert s[..e + 1] == ls[0] + "\n";
    }
  }

  /** The replacement text of either form expands to `line` wherever it is inserted. */
  lemma ExpandToLine(repl: string, line: string, escaped: bool, matched: string, before: string, after: string)
    requires if escaped then repl == EscapeDollars(line) else repl == line && '$' !in line
    ensures Expand(repl, matched, before, after) == line
  {
    if escaped {
      ExpandEscaped(line, matched, before, after);
    } else {
      ExpandLiteral(line, matched, before, after);
    }
  }

  /** On text made of lines, the regular-expression replacement rewrites exactly the first line setting `key`. */
  lemma {:induction false} ReplaceKeyLineOnLines(before: string, ls: seq<string>, key: string, repl: string, line: string, escaped: bool)
    requires |ls| >= 1
    requires forall k :: 0 <= k < |ls| ==> NoLineTerminator(ls[k])
    requires PlainKey(key)
    requires if escaped then repl == EscapeDollars(line) else repl == line && '$' !in line
    ensures var i := FindKeyLine(ls, key);
            ReplaceKeyLine(before, Join(ls), key, repl) == if i < |ls| then Some(Join(ls[i := line])) else None
    decreases |ls|
  {
    if IsKeyLine(ls[0], key) {
      ReplaceFirstLine(before, ls, key, repl, line, escaped);
    } else if |ls| == 1 {
      ReplaceKeyLineStep(before, ls, key, repl);
    } else {
      ReplaceKeyLineOnLines(before + (ls[0] + "\n"), ls[1..], key, repl, line, escaped);
      ReplaceLaterLine(before, ls, key, repl, line);
    }
  }

  /** The first line sets `key`: it is the one replaced. */
  lemma {:induction false} ReplaceFirstLine(before: string, ls: seq<string>, key: string, repl: string, line: string, escaped: bool)
    requires |ls| >= 1 && NoLineTerminator(ls[0]) && IsKeyLine(ls[0], key)
    requires PlainKey(key)
    requires if escaped then repl == EscapeDollars(line) else repl == line && '$' !in line
    ensures FindKeyLine(ls, key) == 0
    ensures ReplaceKeyLine(before, Join(ls), key, repl) == Some(Join(ls[0 := line]))
  {
    ReplaceKeyLineStep(before, ls, key, repl);
    var rest := if |ls| == 1 then "" else "\n" + Join(ls[1..]);
    ExpandToLine(repl, line, escaped, ls[0], before, rest);
    JoinUpdateHead(ls, line);
  }

  /** Replacing the first line, seen from the joined text. */
  lemma {:induction false} JoinUpdateHead(ls: seq<string>, line: string)
    requires |ls| >= 1
    ensures Join(ls[0 := line]) == line + (if |ls| == 1 then "" else "\n" + Join(ls[1..]))
  {
    if |ls| > 1 {
      assert ls[0 := line] == [line] + ls[1..];
      JoinCons(line, ls[1..]);
    } else {
      assert ls[0 := line] == [line] && line + "" == line;
    }
  }

  /** The first line does not set `key`: the replacement happens, if at all, in the remaining lines. */
  lemma {:induction false} ReplaceLaterLine(before: string, ls: seq<string>, key: string, repl: string, line: string)
    requires |ls| >= 2 && NoLineTerminator(ls[0]) && !IsKeyLine(ls[0], key)
    requires PlainKey(key)
    requires var i := FindKeyLine(ls[1..], key);
             ReplaceKeyLine(before + (ls[0] + "\n"), Join(ls[1..]), key, repl) ==
               if i < |ls| - 1 then Some(Join(ls[1..][i := line])) else None
    ensures var i := FindKeyLine(ls, key);
            ReplaceKeyLine(before, Join(ls), key, repl) == if i < |ls| then Some(Join(ls[i := line])) else None
  {
    ReplaceKeyLineStep(before, ls, key, repl);
    var i := FindKeyLine(ls[1..], key);
    assert FindKeyLine(ls, key) == i + 1;
    if i < |ls| - 1 {
      JoinUpdateTail(ls, i, line);
    }
  }

  /** Replacing a line after the first one, seen from the joined text. */
  lemma {:induction false} JoinUpdateTail(ls: seq<string>, i: nat, line: string)
    requires |ls| >= 2 && i < |ls| - 1
    ensures Join(ls[i + 1 := line]) == ls[0] + "\n" + Join(ls[1..][i := line])
  {
    var t' := ls[1..][i := line];
    assert ls[i + 1 := line] == [ls[0]] + t';
    JoinCons(ls[0], t');
  }

  /**
   * On a file whose only line terminator is '\n', with a plain key and
   * value, `updateEnvVariable` is `Upsert` on the file's lines: the text
   * becomes the lines of `Upsert` joined by '\n'; when no line sets the
   * key, that is the old text followed by `"\n" + key + "=" + value`.
   */
  lemma UpdateEnvVariableIsUpsert(content: string, key: string, value: string)
    requires LfOnly(content) && PlainKey(key) && PlainValue(value)
    ensures UpdateEnvVariable(content, key, value) == Join(Upsert(Split(content), key, value))
    ensures Split(UpdateEnvVariable(content, key, value)) == Upsert(Split(content), key, value)
    ensures FindKeyLine(Split(content), key) == |Split(content)| ==>
              UpdateEnvVariable(content, key, value) == content + "\n" + (key + "=" + value)
  {
    PlainLine(key, value);
    UpsertByReplace(content, key, value, key + "=" + value, false);
  }

  /** An update keeps the file '\n'-only, and its lines are the upserted lines, so updates compose. */
  lemma UpdateEnvVariableStep(content: string, key: string, value: string)
    requires LfOnly(content) && PlainKey(key) && PlainValue(value)
    ensures LfOnly(UpdateEnvVariable(content, key, value))
    ensures Split(UpdateEnvVariable(content, key, value)) == Upsert(Split(content), key, value)
  {
    UpdateEnvVariableIsUpsert(content, key, value);
    SplitLinesPlain(content);
    PlainLine(key, value);
    var r := Upsert(Split(content), key, value);
    assert forall k :: 0 <= k < |r| ==> NoLineTerminator(r[k]);
    JoinLfOnly(r);
  }

  /** Lines without line terminators, joined by '\n', make a '\n'-only text. */
  lemma {:induction false} JoinLfOnly(ls: seq<string>)
    requires forall k :: 0 <= k < |ls| ==> NoLineTerminator(ls[k])
    ensures LfOnly(Join(ls))
  {
    if |ls| == 1 {
      assert NoLineTerminator(ls[0]);
    } else if |ls| > 1 {
      var t := Join(ls[1..]);
      JoinLfOnly(ls[1..]);
      var s := ls[0] + "\n" + t;
      assert NoLineTerminator(ls[0]);
      forall i | 0 <= i < |s|
        ensures s[i] == '\n' || !IsLineTerminator(s[i])
      {
        if i < |ls[0]| {
          assert s[i] == ls[0][i];
        } else if i > |ls[0]| {
          assert s[i] == t[i - |ls[0]| - 1];
        }
      }
    }
  }

  /**
   * The common core of both theorems: when the replacement text inserts
   * `key=value` literally, replacing the first key line or appending one
   * is `Upsert` on the lines.
   */
  lemma UpsertByReplace(content: string, key: string, value: string, repl: string, escaped: bool)
    requires LfOnly(content) && PlainKey(key) && NoLineTerminator(value)
    requires if escaped then repl == EscapeDollars(key + "=" + value) else repl == key + "=" + value && '$' !in repl
    ensures var ls := Split(content);
            var r := Upsert(ls, key, value);
            && ReplaceKeyLine("", content, key, repl) == (if FindKeyLine(ls, key) < |ls| then Some(Join(r)) else None)
            && (FindKeyLine(ls, key) == |ls| ==> content + "\n" + (key + "=" + value) == Join(r))
            && Split(Join(r)) == r
  {
    var ls := Split(content);
    var line := key + "=" + value;
    JoinSplit(content);
    SplitLinesPlain(content);
    ReplaceKeyLineOnLines("", ls, key, repl, line, escaped);
    if FindKeyLine(ls, key) == |ls| {
      JoinSnoc(ls, line);
    }
    KeyValueLine(key, value);
    UpsertSplitJoin(ls, key, value);
  }

  /** The lines of an upsert on lines hold no line break, so joining and splitting them gives them back. */
  lemma UpsertSplitJoin(ls: seq<string>, key: string, value: string)
    requires forall k :: 0 <= k < |ls| ==> NoLineTerminator(ls[k])
    requires NoLineTerminator(key + "=" + value)
    ensures Split(Join(Upsert(ls, key, value))) == Upsert(ls, key, value)
  {
    var r := Upsert(ls, key, value);
    forall k | 0 <= k < |r| ensures '\n' !in r[k] {
      assert NoLineTerminator(r[k]);
    }
    SplitJoin(r);
  }

  lemma {:induction false} PlainLine(key: string, value: string)
    requires PlainKey(key) && PlainValue(value)
    ensures NoLineTerminator(key + "=" + value)
    ensures '$' !in key + "=" + value
  {
    KeyValueLine(key, value);
    var l := key + "=" + value;
    forall i | 0 <= i < |l| ensures l[i] != '$' {
      if i < |key| {
        assert l[i] == key[i] && IsWordChar(key[i]);
      } else if i > |key| {
        assert l[i] == value[i - |key| - 1];
        assert value[i - |key| - 1] in value;
      }
    }
  }

  /** A plain key and a value on one line make one line. */
  lemma {:induction false} KeyValueLine(key: string, value: string)
    requires PlainKey(key) && NoLineTerminator(value)
    ensures NoLineTerminator(key + "=" + value)
  {
    PlainKeyLine(key);
    var l := key + "=" + value;
    forall i | 0 <= i < |l| ensures !IsLineTerminator(l[i]) {
      if i > |key| {
        assert l[i] == value[i - |key| - 1];
      }
    }
  }

  /** The lines of a '\n'-only text hold no line terminator at all. */
  lemma {:induction false} SplitLinesPlain(s: string)
    requires LfOnly(s)
    ensures forall k :: 0 <= k < |Split(s)| ==> NoLineTerminator(Split(s)[k])
  {
    if s != [] {
      var rest := s[1..];
      assert LfOnly(rest) by {
        forall j | 0 <= j < |rest| ensures rest[j] == '\n' || !IsLineTerminator(rest[j]) {
          assert rest[j] == s[j + 1];
        }
      }
      SplitLinesPlain(rest);
      var r := Split(rest);
      if s[0] == '\n' {
        forall k | 0 <= k < |Split(s)| ensures NoLineTerminator(Split(s)[k]) {
          if k > 0 {
            assert Split(s)[k] == r[k - 1];
          }
        }
      } else {
        var first := [s[0]] + r[0];
        assert NoLineTerminator(first) by {
          forall j | 0 <= j < |first| ensures !IsLineTerminator(first[j]) {
            if j > 0 {
              assert first[j] == r[0][j - 1];
            }
          }
        }
        forall k | 0 <= k < |Split(s)| ensures NoLineTerminator(Split(s)[k]) {
          if k > 0 {
            assert Split(s)[k] == r[k];
          }
        }
      }
    }
  }

  // ---------------------------------------------------------------------------
  // `$` in a value
  // ---------------------------------------------------------------------------

  /**
   * `updateEnvVariable` as written turns the value `$&` into a copy of the
   * line it replaces: a file `PORT=1` becomes `PORT=PORT=1`, where `Upsert`
   * gives the line `PORT=$&`.
   */
  lemma DollarValueExpanded(line: string, key: string)
    requires NoLineTerminator(line) && PlainKey(key) && IsKeyLine(line, key)
    ensures UpdateEnvVariable(line, key, "$&") == key + "=" + line
    ensures Upsert(Split(line), key, "$&") == [key + "=" + "$&"]
    ensures UpdateEnvVariable(line, key, "$&") != Join(Upsert(Split(line), key, "$&"))
  {
    var repl := key + "=" + "$&";
    ReplaceKeyLineStep("", [line], key, repl);
    assert Join([line]) == line;
    PlainKeyLine(key);
    assert '$' !in key + "=" by {
      forall i | 0 <= i < |key| ensures key[i] != '$' {
        assert IsWordChar(key[i]);
      }
    }
    ExpandLiteralPrefix(key + "=", "$&", line, "", "");
    assert Expand("$&", line, "", "") == line by {
      assert IsPattern("$&") && "$&"[2..] == [];
    }
    assert line + "" == line;
    assert '\n' !in line by {
      assert forall i :: 0 <= i < |line| ==> line[i] != '\n';
    }
    UpsertOneLine(line, key, "$&");
    assert Join([repl]) == repl;
    var bad := key + "=" + line;
    assert bad[|key| + 1] == line[0] == key[0] && IsWordChar(key[0]);
    assert repl[|key| + 1] == '$';
  }

  /** A one-line file that sets `key` becomes the single line `key=value`. */
  lemma UpsertOneLine(s: string, key: string, value: string)
    requires '\n' !in s && IsKeyLine(s, key)
    ensures Upsert(Split(s), key, value) == [key + "=" + value]
  {
    SplitJoin([s]);
    assert FindKeyLine([s], key) == 0;
  }

  /** A prefix without `$` is inserted literally, whatever follows it. */
  lemma {:induction false} ExpandLiteralPrefix(p: string, rest: string, matched: string, before: string, after: string)
    requires '$' !in p
    ensures Expand(p + rest, matched, before, after) == p + Expand(rest, matched, before, after)
    decreases |p|
  {
    if p != [] {
      assert forall c :: c in p[1..] ==> c in p;
      ExpandLiteralPrefix(p[1..], rest, matched, before, after);
      assert p + rest == [p[0]] + (p[1..] + rest);
      ExpandCons(p[0], p[1..] + rest, matched, before, after);
      assert p == [p[0]] + p[1..];
    } else {
      assert p + rest == rest;
    }
  }

  /** A character other than `$` is inserted as it is. */
  lemma ExpandCons(c: char, rest: string, matched: string, before: string, after: string)
    requires c != '$'
    ensures Expand([c] + rest, matched, before, after) == [c] + Expand(rest, matched, before, after)
  {
    var r := [c] + rest;
    assert r[0] == c && !IsPattern(r) && r[1..] == rest;
  }

  /** `s` with every `$` doubled, the form in which `replace` inserts it literally. */
  function EscapeDollars(s: string): (r: string)
    ensures |r| >= |s|
  {
    if s == [] then [] else (if s[0] == '$' then "$$" else [s[0]]) + EscapeDollars(s[1..])
  }

  /** An escaped text expands back to itself, whatever it replaces. */
  lemma {:induction false} ExpandEscaped(s: string, matched: string, before: string, after: string)
    ensures Expand(EscapeDollars(s), matched, before, after) == s
    decreases |s|
  {
    if s != [] {
      var r := EscapeDollars(s);
      var tail := EscapeDollars(s[1..]);
      ExpandEscaped(s[1..], matched, before, after);
      if s[0] == '$' {
        assert r == "$$" + tail;
        assert IsPattern(r) && r[2..] == tail;
      } else {
        assert r == [s[0]] + tail;
        assert !IsPattern(r) && r[1..] == tail;
      }
      assert s == [s[0]] + s[1..];
    }
  }

  /**
   * `updateEnvVariable` with the replacement text escaped: the line for the
   * key reads `key=value` for every value, `$` included.
   */
  function UpdateEnvVariableEscaped(content: string, key: string, value: string): string {
    var line := key + "=" + value;
    match ReplaceKeyLine("", content, key, EscapeDollars(line))
    case Some(r) => r
    case None => content + "\n" + line
  }

  /** With the escape, the upsert holds for every value on one line, `$` included. */
  lemma UpdateEnvVariableEscapedIsUpsert(content: string, key: string, value: string)
    requires LfOnly(content) && PlainKey(key) && NoLineTerminator(value)
    ensures Split(UpdateEnvVariableEscaped(content, key, value)) == Upsert(Split(content), key, value)
    ensures Lookup(Split(UpdateEnvVariableEscaped(content, key, value)), key) == Some(value)
  {
    UpsertByReplace(content, key, value, EscapeDollars(key + "=" + value), true);
    LookupUpsertSame(Split(content), key, value);
  }
}

=== FILE: Gestor.dfy ===
/**
 * The client lifecycle manager: the request handlers of the service, as
 * methods of one object that holds the host it acts on, the process-wide
 * `activeRequests` counter, the callbacks left behind with `setTimeout`, and
 * the trace of every command issued so far.
 *
 * Every handler validates its fields first, then checks that the directory
 * exists, then issues its commands in the order of the source. A command in
 * the set `failing` exits with an error: it is issued (it appears in the
 * trace) but has no effect. A handler stops at its first failing command
 * and answers 500, except inside an `xargs` pass, which runs its command for
 * every listed bot and only then reports the failure.
 */
module Gestor {
  import opened Wrappers
  import opened Text
  import opened EnvFile
  import opened Requests
  import opened Naming
  import opened Effects

  /** The callbacks the handlers leave with `setTimeout(…, 5000)`; equal delays fire in the order they were set. */
  datatype Timer =
    | StartManager        // after create: `pm2 start gestor_clientes`
    | StartManagerIfIdle  // after delete: the same, only if `activeRequests === 0` by then

  datatype Cause =
    | AlreadyExists(dir: string)   // the instance directory is already there
    | CommandFailed(cmd: Command)   // a command exited with an error
    | PassFailed(verb: string)     // some `pm2 <verb>` run by `xargs` exited with an error

  /** The answer of a handler: 200, 400, 404, or 500 with what went wrong. */
  datatype Status = Ok | BadRequest | NotFound | Failed(cause: Cause)

  /** The variables create writes into the instance's `.env`. */
  const PortKey := "PORT"
  const WebhookKey := "WEBHOOK"
  const InstanceKey := "INSTANCE_ID"
  const EmailKey := "EMAIL_TOKEN"

  /** The text of a file that may be missing: empty when it is. */
  function ExistingText(file: Option<string>): string {
    if file.Some? then file.value else ""
  }

  /** The `.env` text create writes: the copied file (or nothing) with PORT, WEBHOOK, INSTANCE_ID and EMAIL_TOKEN upserted in that order. */
  function ConfiguredEnv(existing: Option<string>, port: string, webhook: string, instanceId: string, email: string): string {
    var c := ExistingText(existing);
    UpdateEnvVariable(UpdateEnvVariable(UpdateEnvVariable(UpdateEnvVariable(c, PortKey, port), WebhookKey, webhook), InstanceKey, instanceId), EmailKey, email)
  }

  /**
   * The lines of create's `.env` are the lines of the existing text with the
   * four variables upserted in turn.
   */
  lemma ConfiguredEnvLines(existing: Option<string>, port: string, webhook: string, instanceId: string, email: string)
    requires LfOnly(ExistingText(existing))
    requires PlainValue(port) && PlainValue(webhook) && PlainValue(instanceId) && PlainValue(email)
    ensures Split(ConfiguredEnv(existing, port, webhook, instanceId, email)) ==
            Upsert(Upsert(Upsert(Upsert(Split(ExistingText(existing)), PortKey, port), WebhookKey, webhook), InstanceKey, instanceId), EmailKey, email)
  {
    var c0 := ExistingText(existing);
    var c1 := UpdateEnvVariable(c0, PortKey, port);
    var c2 := UpdateEnvVariable(c1, WebhookKey, webhook);
    var c3 := UpdateEnvVariable(c2, InstanceKey, instanceId);
    assert PlainKey(PortKey) && PlainKey(WebhookKey) && PlainKey(InstanceKey) && PlainKey(EmailKey);
    UpdateEnvVariableStep(c0, PortKey, port);
    UpdateEnvVariableStep(c1, WebhookKey, webhook);
    UpdateEnvVariableStep(c2, InstanceKey, instanceId);
    UpdateEnvVariableStep(c3, EmailKey, email);
  }

  /**
   * On a '\n'-only `.env` with one-line, `$`-free values, create's four
   * updates leave each of the four variables set to its value and every
   * other plain key as it was.
   */
  lemma ConfiguredEnvSetsKeys(existing: Option<string>, port: string, webhook: string, instanceId: string, email: string)
    requires LfOnly(ExistingText(existing))
    requires PlainValue(port) && PlainValue(webhook) && PlainValue(instanceId) && PlainValue(email)
    ensures var ls := Split(ConfiguredEnv(existing, port, webhook, instanceId, email));
            && Lookup(ls, PortKey) == Some(port)
            && Lookup(ls, WebhookKey) == Some(webhook)
            && Lookup(ls, InstanceKey) == Some(instanceId)
            && Lookup(ls, EmailKey) == Some(email)
    ensures forall k :: PlainKey(k) && k != PortKey && k != WebhookKey && k != InstanceKey && k != EmailKey ==>
              Lookup(Split(ConfiguredEnv(existing, port, webhook, instanceId, email)), k) == Lookup(Split(ExistingText(existing)), k)
  {
    ConfiguredEnvLines(existing, port, webhook, instanceId, email);
    LookupFourUpserts(Split(ExistingText(existing)), port, webhook, instanceId, email);
  }

  /** The same four upserts on lines: each variable reads back as its value, every other plain key as before. */
  lemma LookupFourUpserts(l0: seq<string>, port: string, webhook: string, instanceId: string, email: string)
    ensures var ls := Upsert(Upsert(Upsert(Upsert(l0, PortKey, port), WebhookKey, webhook), InstanceKey, instanceId), EmailKey, email);
            && Lookup(ls, PortKey) == Some(port)
            && Lookup(ls, WebhookKey) == Some(webhook)
            && Lookup(ls, InstanceKey) == Some(instanceId)
            && Lookup(ls, EmailKey) == Some(email)
            && forall k :: PlainKey(k) && k != PortKey && k != WebhookKey && k != InstanceKey && k != EmailKey ==>
                 Lookup(ls, k) == Lookup(l0, k)
  {
    assert PlainKey(PortKey) && PlainKey(WebhookKey) && PlainKey(InstanceKey) && PlainKey(EmailKey);
    var l1 := Upsert(l0, PortKey, port);
    var l2 := Upsert(l1, WebhookKey, webhook);
    var l3 := Upsert(l2, InstanceKey, instanceId);
    LookupUpsertSame(l3, EmailKey, email);
    LookupUpsertSame(l2, InstanceKey, instanceId);
    LookupUpsertOther(l3, EmailKey, email, InstanceKey);
    LookupUpsertSame(l1, WebhookKey, webhook);
    LookupUpsertOther(l2, InstanceKey, instanceId, WebhookKey);
    LookupUpsertOther(l3, EmailKey, email, WebhookKey);
    LookupUpsertSame(l0, PortKey, port);
    LookupUpsertOther(l1, WebhookKey, webhook, PortKey);
    LookupUpsertOther(l2, InstanceKey, instanceId, PortKey);
    LookupUpsertOther(l3, EmailKey, email, PortKey);
    forall k | PlainKey(k) && k != PortKey && k != WebhookKey && k != InstanceKey && k != EmailKey
      ensures Lookup(Upsert(l3, EmailKey, email), k) == Lookup(l0, k)
    {
      LookupUpsertOther(l0, PortKey, port, k);
      LookupUpsertOther(l1, WebhookKey, webhook, k);
      LookupUpsertOther(l2, InstanceKey, instanceId, k);
      LookupUpsertOther(l3, EmailKey, email, k);
    }
  }

  /** The read of the copied `.env`, made only when the file exists, that is when the template has one. */
  function EnvRead(template: Workspace, dir: string): seq<Command> {
    if template.env.Some? then [ReadEnv(dir)] else []
  }

  /** The commands create issues once the directory is known to be new. */
  function CreatePlan(template: Workspace, r: CreateRequest): seq<Command> {
    var dir := ClientDir(r.id, r.instanceId);
    [CopyTemplate(dir)] + EnvRead(template, dir) +
    [ WriteEnv(dir, ConfiguredEnv(template.env, Render(r.port), Render(r.webhook), Render(r.instanceId), Render(r.email))),
      RemoveSessions(dir),
      StartApp(dir, ProcessName(r.name, r.instanceId)),
      SaveProcessList ]
  }

  /** The commands reset issues once the directory is known to exist. */
  function ResetPlan(r: ClientRequest): seq<Command> {
    [ Pm2("stop", LegacyProcessName(r.name)), RemoveSessions(LegacyDir(r.id)), Pm2("start", LegacyProcessName(r.name)) ]
  }

  /** The commands delete issues once the directory is known to exist. */
  function DeletePlan(r: DeleteRequest): seq<Command> {
    [ Pm2("delete", ProcessName(r.name, r.instanceId)), SaveProcessList, RemoveDir(ClientDir(r.name, r.instanceId)) ]
  }

  /**
   * What a create that went through leaves behind: the new directory is the
   * template with the configured `.env` and no sessions, the process is
   * online, the saved list is the live list, and no other directory and no
   * other process changed.
   */
  ghost predicate CreatedClient(h: Host, h': Host, r: CreateRequest) {
    var env := ConfiguredEnv(h.template.env, Render(r.port), Render(r.webhook), Render(r.instanceId), Render(r.email));
    Created(h, h', ClientDir(r.id, r.instanceId), env, ProcessName(r.name, r.instanceId))
  }

  /** `dir` is a copy of the template with `.env` text `env` and no sessions; `name` is online and saved; nothing else changed. */
  ghost predicate Created(h: Host, h': Host, dir: string, env: string, name: string) {
    && dir in h'.clients
    && h'.clients[dir] == h.template.(env := Some(env), sessions := None)
    && StatusOf(h'.procs, name) == Some(Online)
    && (forall m :: m != name ==> StatusOf(h'.procs, m) == StatusOf(h.procs, m))
    && h'.saved == h'.procs
    && h'.template == h.template
    && h'.clients - {dir} == h.clients - {dir}
  }

  /** The commands of a create, for any directory, `.env` text and process name, run to the end. */
  lemma CreateStepsEffect(h: Host, dir: string, env: string, name: string)
    ensures Created(h, Perform(h, [CopyTemplate(dir), WriteEnv(dir, env), RemoveSessions(dir), StartApp(dir, name), SaveProcessList]), dir, env, name)
  {
    var made := h.clients[dir := h.template.(env := Some(env), sessions := None)];
    var h3 := h.(clients := made);
    CreateFilesEffect(h, dir, env);
    var h5 := h3.(procs := Launch(h.procs, name), saved := Launch(h.procs, name));
    assert Apply(Apply(h3, StartApp(dir, name)), SaveProcessList) == h5;
    PerformFive(h, CopyTemplate(dir), WriteEnv(dir, env), RemoveSessions(dir), StartApp(dir, name), SaveProcessList);
    LaunchOnline(h.procs, name);
  }

  /** The file steps of a create: copy the template, write the `.env`, remove the sessions. */
  lemma CreateFilesEffect(h: Host, dir: string, env: string)
    ensures Apply(Apply(Apply(h, CopyTemplate(dir)), WriteEnv(dir, env)), RemoveSessions(dir))
            == h.(clients := h.clients[dir := h.template.(env := Some(env), sessions := None)])
  {
    var h1 := h.(clients := h.clients[dir := h.template]);
    assert Apply(h, CopyTemplate(dir)) == h1;
    var h2 := h.(clients := h.clients[dir := h.template.(env := Some(env))]);
    assert h1.clients[dir := h1.clients[dir].(env := Some(env))] == h2.clients;
    assert Apply(h1, WriteEnv(dir, env)) == h2;
    var h3 := h.(clients := h.clients[dir := h.template.(env := Some(env), sessions := None)]);
    assert h2.clients[dir := h2.clients[dir].(sessions := None)] == h3.clients;
  }

  /** Reading the `.env` changes nothing: a create with the read performs as one without it. */
  lemma SkipRead(h: Host, dir: string, read: seq<Command>, c1: Command, c2: Command, c3: Command, c4: Command)
    requires read == [] || read == [ReadEnv(dir)]
    ensures Perform(h, [CopyTemplate(dir)] + read + [c1, c2, c3, c4]) == Perform(h, [CopyTemplate(dir), c1, c2, c3, c4])
  {
    var c0 := CopyTemplate(dir);
    var rest := [c1, c2, c3, c4];
    assert [c0, c1, c2, c3, c4] == [c0] + rest;
    PerformAppend(h, [c0] + read, rest);
    PerformAppend(h, [c0], rest);
    if read != [] {
      var p := [c0] + read;
      assert p[..|p| - 1] == [c0] && p[|p| - 1] == ReadEnv(dir);
      assert Perform(h, p) == Apply(Perform(h, [c0]), ReadEnv(dir));
    }
  }

  /** The create plan, run to the end, creates the client and touches nothing else. */
  lemma CreatePlanEffect(h: Host, r: CreateRequest)
    ensures CreatedClient(h, Perform(h, CreatePlan(h.template, r)), r)
  {
    var dir := ClientDir(r.id, r.instanceId);
    var name := ProcessName(r.name, r.instanceId);
    var env := ConfiguredEnv(h.template.env, Render(r.port), Render(r.webhook), Render(r.instanceId), Render(r.email));
    SkipRead(h, dir, EnvRead(h.template, dir), WriteEnv(dir, env), RemoveSessions(dir), StartApp(dir, name), SaveProcessList);
    CreateStepsEffect(h, dir, env, name);
  }

  /** `pm2 ls | grep 'bot-' | awk '{print $4}'`: the names of the bot processes, in list order. */
  function ListedBots(ps: seq<Proc>): seq<string> {
    BotFilter(Names(ps))
  }

  /** What `awk '{print $4}'` writes for the listed names: each name on a line of its own. */
  function ListingText(names: seq<string>): string {
    if names == [] then "" else names[0] + "\n" + ListingText(names[1..])
  }

  /** `output.trim().split('\n')` of the bot listing. */
  function ListedItems(ps: seq<Proc>): seq<string> {
    Split(Trim(ListingText(ListedBots(ps))))
  }

  /** A column `awk` prints: not empty, on one line, with no white space at either end. */
  predicate AwkField(n: string) {
    n != [] && '\n' !in n && !IsTrimSpace(n[0]) && !IsTrimSpace(n[|n| - 1])
  }

  /**
   * The max-memory handler's items are the listed bot names, in order; when
   * no bot is listed, the trimmed output is empty and splitting it gives one
   * empty item.
   */
  lemma ListedItemsAreBots(ps: seq<Proc>)
    requires forall n :: n in ListedBots(ps) ==> AwkField(n)
    ensures ListedItems(ps) == if ListedBots(ps) == [] then [""] else ListedBots(ps)
  {
    var names := ListedBots(ps);
    if names != [] {
      assert forall k :: 0 <= k < |names| ==> AwkField(names[k]);
      SplitTrimListing(names);
    }
  }

  /** Trimming and splitting the text of nonempty fields gives the fields back. */
  lemma SplitTrimListing(names: seq<string>)
    requires names != []
    requires forall k :: 0 <= k < |names| ==> AwkField(names[k])
    ensures Split(Trim(ListingText(names))) == names
  {
    ListingJoin(names);
    var j := Join(names);
    JoinEnds(names);
    TrimNewline(j);
    SplitJoin(names);
  }

  /** The listing of nonempty names is their '\n'-join with one '\n' after it. */
  lemma {:induction false} ListingJoin(names: seq<string>)
    requires names != []
    ensures ListingText(names) == Join(names) + "\n"
  {
    if |names| > 1 {
      ListingJoin(names[1..]);
      JoinCons(names[0], names[1..]);
      assert [names[0]] + names[1..] == names;
    } else {
      assert names[1..] == [];
    }
  }

  /** Joined lines start with the first line's first character and end with the last line's last one. */
  lemma JoinEnds(names: seq<string>)
    requires names != [] && names[0] != [] && names[|names| - 1] != []
    ensures var j := Join(names);
            && j != []
            && j[0] == names[0][0]
            && j[|j| - 1] == names[|names| - 1][|names[|names| - 1]| - 1]
  {
    var last := names[|names| - 1];
    if |names| > 1 {
      var init := names[..|names| - 1];
      JoinSnoc(init, last);
      assert init + [last] == names;
      assert Join(names) == names[0] + "\n" + Join(names[1..]);
    }
  }

  /** `xargs -I {} pm2 <verb> {}` over `names`: one command per name, in order. */
  function Each(verb: string, names: seq<string>): seq<Command> {
    seq(|names|, i requires 0 <= i < |names| => Pm2(verb, names[i]))
  }

  predicate NoneFail(cs: seq<Command>, failing: set<Command>) {
    forall j :: 0 <= j < |cs| ==> cs[j] !in failing
  }

  lemma NoneFailAppend(cs: seq<Command>, ds: seq<Command>, failing: set<Command>)
    ensures NoneFail(cs + ds, failing) == (NoneFail(cs, failing) && NoneFail(ds, failing))
  {
    forall j | 0 <= j < |cs|
      ensures (cs + ds)[j] == cs[j]
    {
    }
    forall j | 0 <= j < |ds|
      ensures (cs + ds)[|cs| + j] == ds[j]
    {
    }
  }

  lemma NoneFailSnoc(cs: seq<Command>, c: Command, failing: set<Command>)
    ensures NoneFail(cs + [c], failing) == (NoneFail(cs, failing) && c !in failing)
  {
    if NoneFail(cs, failing) && c !in failing {
      forall j | 0 <= j < |cs + [c]|
        ensures (cs + [c])[j] !in failing
      {
        if j < |cs| {
          assert (cs + [c])[j] == cs[j];
        }
      }
    }
    if NoneFail(cs + [c], failing) {
      forall j | 0 <= j < |cs|
        ensures cs[j] !in failing
      {
        assert (cs + [c])[j] == cs[j];
      }
      assert (cs + [c])[|cs|] == c;
    }
  }

  /** What the max-memory pass runs for one listed item: the script, if its directory has one; otherwise nothing. */
  function ScriptStep(clients: map<string, Workspace>, item: string): seq<Command> {
    var dir := ScriptDir(item);
    if dir in clients && clients[dir].startScript then [RunStartScript(dir, ScriptArg(item))] else []
  }

  /** The commands `step` gives for each item, concatenated in the order of the items. */
  function Concat(step: string -> seq<Command>, items: seq<string>): seq<Command> {
    if items == [] then [] else Concat(step, items[..|items| - 1]) + step(items[|items| - 1])
  }

  /** Concatenating over two lists one after the other is concatenating over each. */
  lemma {:induction false} ConcatAppend(step: string -> seq<Command>, a: seq<string>, b: seq<string>)
    ensures Concat(step, a + b) == Concat(step, a) + Concat(step, b)
    decreases |b|
  {
    if b == [] {
      assert a + b == a;
    } else {
      var b' := b[..|b| - 1];
      assert (a + b)[..|a + b| - 1] == a + b';
      assert (a + b)[|a + b| - 1] == b[|b| - 1];
      ConcatAppend(step, a, b');
    }
  }

  /** The commands for the first `i + 1` items are those for the first `i` followed by those for item `i`. */
  lemma ConcatNext(step: string -> seq<Command>, items: seq<string>, i: nat)
    requires i < |items|
    ensures Concat(step, items[..i + 1]) == Concat(step, items[..i]) + step(items[i])
  {
    assert items[..i + 1][..i] == items[..i];
  }

  /**
   * When every item gives at most one command, none of the first `i` items
   * gives a failing one and item `i` does, the commands stop at item `i`
   * once its command is issued.
   */
  lemma ConcatStopsAt(step: string -> seq<Command>, items: seq<string>, i: nat, failing: set<Command>)
    requires i < |items|
    requires |step(items[i])| <= 1
    requires NoneFail(Concat(step, items[..i]), failing)
    requires !NoneFail(step(items[i]), failing)
    ensures var plan := Concat(step, items);
            var done := Concat(step, items[..i]);
            && FirstFailure(plan, failing) == |done|
            && Issued(plan, failing) == done + step(items[i])
            && plan[|done|] == step(items[i])[0]
  {
    var done := Concat(step, items[..i]);
    var here := step(items[i]);
    var rest := Concat(step, items[i + 1..]);
    ConcatNext(step, items, i);
    assert items == items[..i + 1] + items[i + 1..];
    ConcatAppend(step, items[..i + 1], items[i + 1..]);
    StopsAfter(done, here, rest, failing);
  }

  /** A plan whose one failing command follows a run of good ones stops right after it. */
  lemma StopsAfter(done: seq<Command>, here: seq<Command>, rest: seq<Command>, failing: set<Command>)
    requires |here| <= 1
    requires NoneFail(done, failing) && !NoneFail(here, failing)
    ensures var plan := done + here + rest;
            && FirstFailure(plan, failing) == |done|
            && Issued(plan, failing) == done + here
            && plan[|done|] == here[0]
  {
    var plan := done + here + rest;
    assert |here| == 1 && here[0] in failing;
    assert plan[|done|] == here[0];
    forall j | 0 <= j < |done|
      ensures plan[j] !in failing
    {
      assert plan[j] == done[j];
    }
    StopsAt(plan, failing, |done|);
    assert plan[..|done| + 1] == done + here;
  }

  /** What the max-memory pass runs for the listed items, in order. */
  function ScriptPlan(clients: map<string, Workspace>, items: seq<string>): seq<Command> {
    Concat(item => ScriptStep(clients, item), items)
  }

  /**
   * The max-memory pass runs a script only in a directory that has one, with
   * the directory and argument derived from a listed item, and at most one
   * script per item.
   */
  lemma {:induction false} ScriptPlanTargets(clients: map<string, Workspace>, items: seq<string>)
    ensures |ScriptPlan(clients, items)| <= |items|
    ensures forall c :: c in ScriptPlan(clients, items) ==>
              c.RunStartScript? && c.dir in clients && clients[c.dir].startScript &&
              exists item :: item in items && c.dir == ScriptDir(item) && c.arg == ScriptArg(item)
  {
    if items != [] {
      var init := items[..|items| - 1];
      ScriptPlanTargets(clients, init);
      assert forall x :: x in init ==> x in items;
    }
  }

  /** An item whose directory lacks the script leaves no trace: the pass runs the items before it and then the items after it. */
  lemma ScriptPlanSkips(clients: map<string, Workspace>, a: seq<string>, item: string, b: seq<string>)
    requires !(ScriptDir(item) in clients && clients[ScriptDir(item)].startScript)
    ensures ScriptPlan(clients, a + [item] + b) == ScriptPlan(clients, a) + ScriptPlan(clients, b)
  {
    var step := item => ScriptStep(clients, item);
    var single := [item];
    assert single[..|single| - 1] == [] && single[|single| - 1] == item;
    assert step(item) == [];
    assert Concat(step, single) == [];
    ConcatAppend(step, a, single);
    ConcatAppend(step, a + single, b);
  }

  /**
   * The processes during a stop or start pass that began from `p0` and has
   * handled the names `done`: the same names, each handled process whose
   * command succeeded at its target status, every other as in `p0`.
   */
  ghost predicate PassState(p0: seq<Proc>, ps: seq<Proc>, verb: string, done: seq<string>, failing: set<Command>) {
    && Names(ps) == Names(p0)
    && forall m :: StatusOf(ps, m) ==
         if m in done && Pm2(verb, m) !in failing && m in Names(p0)
         then Some(if verb == "stop" then Stopped else Online)
         else StatusOf(p0, m)
  }

  /** Handling one more name keeps the pass in its described state. */
  lemma PassStateNext(p0: seq<Proc>, ps: seq<Proc>, verb: string, done: seq<string>, n: string, failing: set<Command>)
    requires verb == "stop" || verb == "start"
    requires PassState(p0, ps, verb, done, failing)
    ensures PassState(p0, if Pm2(verb, n) in failing then ps else Control(ps, verb, n), verb, done + [n], failing)
  {
    ControlEffect(ps, verb, n);
    assert forall m :: m in done + [n] <==> m in done || m == n;
  }

  /** The host during such a pass: only the process list changes, as `PassState` says. */
  ghost predicate PassHost(h0: Host, h: Host, verb: string, done: seq<string>, failing: set<Command>) {
    && h.clients == h0.clients && h.template == h0.template && h.saved == h0.saved
    && PassState(h0.procs, h.procs, verb, done, failing)
  }

  /** Issuing the command for one more name keeps the host in its described state. */
  lemma PassHostNext(h0: Host, h: Host, verb: string, done: seq<string>, n: string, failing: set<Command>)
    requires verb == "stop" || verb == "start"
    requires PassHost(h0, h, verb, done, failing)
    ensures PassHost(h0, if Pm2(verb, n) in failing then h else Apply(h, Pm2(verb, n)), verb, done + [n], failing)
  {
    ApplyPm2(h, verb, n);
    PassStateNext(h0.procs, h.procs, verb, done, n, failing);
  }

  /** The commands reboot-all issues when no stop fails: a stop per bot, then a start per bot. */
  function RebootTrace(names: seq<string>): seq<Command> {
    Each("stop", names) + Each("start", names)
  }

  /** In reboot-all's trace every stop comes before every start, and the `i`-th listed name is stopped at `i` and started at `|names| + i`. */
  lemma StopsBeforeStarts(names: seq<string>)
    ensures var t := RebootTrace(names);
            forall i, j :: 0 <= i < |t| && 0 <= j < |t| && t[i].verb == "stop" && t[j].verb == "start" ==> i < j
    ensures var t := RebootTrace(names);
            forall i :: 0 <= i < |names| ==> t[i] == Pm2("stop", names[i]) && t[|names| + i] == Pm2("start", names[i])
  {
  }

  /** What a reset that went through leaves behind: the sessions are gone and the bot is online again; nothing else changed. */
  ghost predicate WasReset(h: Host, h': Host, r: ClientRequest) {
    var dir := LegacyDir(r.id);
    var bot := LegacyProcessName(r.name);
    && dir in h.clients
    && h'.clients == h.clients[dir := h.clients[dir].(sessions := None)]
    && Names(h'.procs) == Names(h.procs)
    && (bot in Names(h.procs) ==> StatusOf(h'.procs, bot) == Some(Online))
    && (forall m :: m != bot ==> StatusOf(h'.procs, m) == StatusOf(h.procs, m))
    && h'.saved == h.saved && h'.template == h.template
  }

  /** The commands of a reset, for any process name and existing directory, run to the end. */
  lemma ResetStepsEffect(h: Host, bot: string, dir: string)
    requires dir in h.clients
    ensures var h' := Perform(h, [Pm2("stop", bot), RemoveSessions(dir), Pm2("start", bot)]);
            && h'.clients == h.clients[dir := h.clients[dir].(sessions := None)]
            && h'.procs == Control(Control(h.procs, "stop", bot), "start", bot)
            && h'.saved == h.saved && h'.template == h.template
  {
    PerformThree(h, Pm2("stop", bot), RemoveSessions(dir), Pm2("start", bot));
  }

  /** The reset plan, run to the end, resets the client and touches nothing else. */
  lemma ResetPlanEffect(h: Host, r: ClientRequest)
    requires LegacyDir(r.id) in h.clients
    ensures WasReset(h, Perform(h, ResetPlan(r)), r)
  {
    var bot := LegacyProcessName(r.name);
    ResetStepsEffect(h, bot, LegacyDir(r.id));
    var stopped := Control(h.procs, "stop", bot);
    ControlEffect(h.procs, "stop", bot);
    ControlEffect(stopped, "start", bot);
  }

  /** What a delete that went through leaves behind: no directory, no process, the saved list matches; nothing else changed. */
  ghost predicate WasDeleted(h: Host, h': Host, r: DeleteRequest) {
    var dir := ClientDir(r.name, r.instanceId);
    var name := ProcessName(r.name, r.instanceId);
    && h'.clients == h.clients - {dir}
    && name !in Names(h'.procs)
    && (forall m :: m != name ==> StatusOf(h'.procs, m) == StatusOf(h.procs, m))
    && h'.saved == h'.procs
    && h'.template == h.template
  }

  /** The commands of a delete, for any process name and directory, run to the end. */
  lemma DeleteStepsEffect(h: Host, name: string, dir: string)
    ensures var h' := Perform(h, [Pm2("delete", name), SaveProcessList, RemoveDir(dir)]);
            && h'.clients == h.clients - {dir}
            && h'.procs == Control(h.procs, "delete", name)
            && h'.saved == h'.procs && h'.template == h.template
  {
    var h1 := h.(procs := Control(h.procs, "delete", name));
    ApplyPm2(h, "delete", name);
    var h2 := h1.(saved := h1.procs);
    assert Apply(h1, SaveProcessList) == h2;
    assert Apply(h2, RemoveDir(dir)) == h2.(clients := h.clients - {dir});
    PerformThree(h, Pm2("delete", name), SaveProcessList, RemoveDir(dir));
  }

  /** The delete plan, run to the end, deletes the client and touches nothing else. */
  lemma DeletePlanEffect(h: Host, r: DeleteRequest)
    ensures WasDeleted(h, Perform(h, DeletePlan(r)), r)
  {
    var name := ProcessName(r.name, r.instanceId);
    DeleteStepsEffect(h, name, ClientDir(r.name, r.instanceId));
    ControlEffect(h.procs, "delete", name);
  }

  class ClientManager {
    /** The filesystem and process-supervisor state the handlers act on. */
    var host: Host
    /** The process-wide counter of deletions in progress. */
    var activeRequests: int
    /** Callbacks set with `setTimeout` that have not fired yet. */
    var pending: seq<Timer>
    /** Every command issued so far, in order: the state-changing ones and the `.env` read (the read-only listings are not commands). */
    var trace: seq<Command>
    /** The service process has ended: a timer callback threw and nothing caught it. */
    var exited: bool

    /** The service is running and the counter is not negative. */
    ghost predicate Valid()
      reads this
    {
      !exited && activeRequests >= 0
    }

    /**
     * A sequential plan begun with host `h0` and trace `t0` has gone through
     * its first `n` steps: they were issued, none failed, and the host shows
     * their effects.
     */
    ghost predicate AtStep(plan: seq<Command>, n: nat, failing: set<Command>, h0: Host, t0: seq<Command>)
      reads this
    {
      && n <= |plan|
      && (forall j :: 0 <= j < n ==> plan[j] !in failing)
      && trace == t0 + plan[..n]
      && host == Perform(h0, plan[..n])
    }

    constructor (h: Host)
      ensures Valid()
      ensures host == h && activeRequests == 0 && pending == [] && trace == []
    {
      host := h;
      activeRequests := 0;
      pending := [];
      trace := [];
      exited := false;
    }

    /** `execSync(cmd)` or a synchronous `fs` call: `c` is issued, and takes effect unless it fails. */
    method Exec(c: Command, failing: set<Command>) returns (ok: bool)
      modifies this`host, this`trace
      ensures ok == (c !in failing)
      ensures trace == old(trace) + [c]
      ensures host == if ok then Apply(old(host), c) else old(host)
    {
      ok := c !in failing;
      if ok {
        host := Apply(host, c);
      }
      trace := trace + [c];
    }

    /**
     * The `execSync` calls of one `try` block, in order: the first command
     * that fails throws, and nothing after it runs. `k` is the index of that
     * command, or `|plan|` when none fails.
     */
    method RunPlan(plan: seq<Command>, failing: set<Command>) returns (k: nat)
      modifies this`host, this`trace
      ensures k == FirstFailure(plan, failing)
      ensures trace == old(trace) + Issued(plan, failing)
      ensures host == Perform(old(host), Completed(plan, failing))
    {
      assert plan[..0] == [];
      k := 0;
      while k < |plan|
        invariant AtStep(plan, k, failing, old(host), old(trace))
      {
        var ok := Exec(plan[k], failing);
        assert plan[..k + 1] == plan[..k] + [plan[k]];
        if !ok {
          StopsAt(plan, failing, k);
          return;
        }
        PerformStep(old(host), plan, k);
        k := k + 1;
      }
      RunsThrough(plan, failing);
      assert plan[..k] == plan;
    }

    /**
     * `cloneAndSetupBot` once the directory is known to be new: copy the
     * template, read the copied `.env` if there is one, upsert the four
     * variables into its text and write it back, clear the
     * sessions, start the process, save the process list, and leave the timer
     * that restarts the manager. It stops at the first command that fails.
     */
    method CloneAndSetup(req: CreateRequest, failing: set<Command>) returns (status: Status)
      modifies this`host, this`trace, this`pending
      ensures var plan := CreatePlan(old(host.template), req);
              var k := FirstFailure(plan, failing);
              && trace == old(trace) + Issued(plan, failing)
              && host == Perform(old(host), Completed(plan, failing))
              && status == (if k == |plan| then Ok else Failed(CommandFailed(plan[k])))
              && pending == old(pending) + (if k == |plan| then [StartManager] else [])
    {
      var dir := ClientDir(req.id, req.instanceId);
      var pm2Name := ProcessName(req.name, req.instanceId);
      // The copy carries the template's `.env`, so this is the text read back after the copy.
      var envContent := ExistingText(host.template.env);
      envContent := UpdateEnvVariable(envContent, PortKey, Render(req.port));
      envContent := UpdateEnvVariable(envContent, WebhookKey, Render(req.webhook));
      envContent := UpdateEnvVariable(envContent, InstanceKey, Render(req.instanceId));
      envContent := UpdateEnvVariable(envContent, EmailKey, Render(req.email));
      var read := if host.template.env.Some? then [ReadEnv(dir)] else [];
      var plan := [CopyTemplate(dir)] + read + [WriteEnv(dir, envContent), RemoveSessions(dir), StartApp(dir, pm2Name), SaveProcessList];
      var k := RunPlan(plan, failing);
      if k < |plan| {
        return Failed(CommandFailed(plan[k]));
      }
      pending := pending + [StartManager];
      status := Ok;
    }

    /** `POST /clientes/create`: the six fields must be present and the instance directory new. */
    method CreateClient(req: CreateRequest, failing: set<Command>) returns (status: Status)
      requires Valid()
      modifies this`host, this`trace, this`pending
      ensures Valid()
      ensures status == BadRequest <==> !CreateFieldsPresent(req)
      ensures !CreateFieldsPresent(req) || ClientDir(req.id, req.instanceId) in old(host.clients) ==>
                host == old(host) && trace == old(trace) && pending == old(pending)
      ensures CreateFieldsPresent(req) && ClientDir(req.id, req.instanceId) in old(host.clients) ==>
                status == Failed(AlreadyExists(ClientDir(req.id, req.instanceId)))
      ensures CreateFieldsPresent(req) && ClientDir(req.id, req.instanceId) !in old(host.clients) ==>
                (var plan := CreatePlan(old(host.template), req);
                 var k := FirstFailure(plan, failing);
                 && trace == old(trace) + Issued(plan, failing)
                 && host == Perform(old(host), Completed(plan, failing))
                 && status == (if k == |plan| then Ok else Failed(CommandFailed(plan[k])))
                 && pending == old(pending) + (if k == |plan| then [StartManager] else []))
      ensures status == Ok ==> CreatedClient(old(host), host, req)
    {
      if !CreateFieldsPresent(req) {
        return BadRequest;
      }
      var dir := ClientDir(req.id, req.instanceId);
      if dir in host.clients {
        return Failed(AlreadyExists(dir));
      }
      ghost var h0 := host;
      status := CloneAndSetup(req, failing);
      if status == Ok {
        ghost var plan := CreatePlan(h0.template, req);
        assert Completed(plan, failing) == plan;
        CreatePlanEffect(h0, req);
      }
    }

    /** `POST /clientes/change-status`: `pm2 <command> api-bot-<name>-<instance_id>` for an existing instance. */
    method ChangeStatus(req: ChangeStatusRequest, failing: set<Command>) returns (status: Status)
      requires Valid()
      modifies this`host, this`trace
      ensures Valid()
      ensures status == BadRequest <==> !ChangeStatusFieldsPresent(req)
      ensures status == NotFound <==> ChangeStatusFieldsPresent(req) && ClientDir(req.id, req.instanceId) !in old(host.clients)
      ensures status == BadRequest || status == NotFound ==> host == old(host) && trace == old(trace)
      ensures ChangeStatusFieldsPresent(req) && ClientDir(req.id, req.instanceId) in old(host.clients) ==>
                (var c := Pm2(Render(req.command), ProcessName(req.name, req.instanceId));
                 && trace == old(trace) + [c]
                 && status == (if c in failing then Failed(CommandFailed(c)) else Ok)
                 && host == (if c in failing then old(host) else old(host).(procs := Control(old(host.procs), c.verb, c.name))))
      ensures forall m :: m != ProcessName(req.name, req.instanceId) ==> StatusOf(host.procs, m) == StatusOf(old(host.procs), m)
    {
      if !ChangeStatusFieldsPresent(req) {
        return BadRequest;
      }
      var dir := ClientDir(req.id, req.instanceId);
      if dir !in host.clients {
        return NotFound;
      }
      var pm2Name := ProcessName(req.name, req.instanceId);
      var c := Pm2(Render(req.command), pm2Name);
      ghost var before := host.procs;
      var ok := Exec(c, failing);
      ControlEffect(before, c.verb, pm2Name);
      status := if ok then Ok else Failed(CommandFailed(c));
    }

    /** `POST /clientes/reset`: stop `bot-<name>`, clear the sessions of `cliente_<id>`, start it again. */
    method Reset(req: ClientRequest, failing: set<Command>) returns (status: Status)
      requires Valid()
      modifies this`host, this`trace
      ensures Valid()
      ensures status == BadRequest <==> !ClientFieldsPresent(req)
      ensures status == NotFound <==> ClientFieldsPresent(req) && LegacyDir(req.id) !in old(host.clients)
      ensures status == BadRequest || status == NotFound ==> host == old(host) && trace == old(trace)
      ensures ClientFieldsPresent(req) && LegacyDir(req.id) in old(host.clients) ==>
                (var plan := ResetPlan(req);
                 var k := FirstFailure(plan, failing);
                 && trace == old(trace) + Issued(plan, failing)
                 && host == Perform(old(host), Completed(plan, failing))
                 && status == (if k == |plan| then Ok else Failed(CommandFailed(plan[k]))))
      ensures status == Ok ==> WasReset(old(host), host, req)
    {
      if !ClientFieldsPresent(req) {
        return BadRequest;
      }
      var dir := LegacyDir(req.id);
      if dir !in host.clients {
        return NotFound;
      }
      var pm2Name := LegacyProcessName(req.name);
      ghost var h0 := host;
      var plan := [Pm2("stop", pm2Name), RemoveSessions(dir), Pm2("start", pm2Name)];
      var k := RunPlan(plan, failing);
      if k < |plan| {
        return Failed(CommandFailed(plan[k]));
      }
      assert Completed(plan, failing) == plan;
      ResetPlanEffect(h0, req);
      status := Ok;
    }

    /** The `try` block of delete: remove the process, save the list, remove the directory; stop at the first failure. */
    method Deregister(req: DeleteRequest, failing: set<Command>) returns (status: Status)
      modifies this`host, this`trace
      ensures var plan := DeletePlan(req);
              var k := FirstFailure(plan, failing);
              && trace == old(trace) + Issued(plan, failing)
              && host == Perform(old(host), Completed(plan, failing))
              && status == (if k == |plan| then Ok else Failed(CommandFailed(plan[k])))
      ensures status == Ok ==> WasDeleted(old(host), host, req)
    {
      var dir := ClientDir(req.name, req.instanceId);
      var pm2Name := ProcessName(req.name, req.instanceId);
      ghost var h0 := host;
      var plan := [Pm2("delete", pm2Name), SaveProcessList, RemoveDir(dir)];
      var k := RunPlan(plan, failing);
      if k < |plan| {
        return Failed(CommandFailed(plan[k]));
      }
      assert Completed(plan, failing) == plan;
      DeletePlanEffect(h0, req);
      status := Ok;
    }

    /**
     * `POST /clientes/delete` as written: the counter goes up once the fields
     * are present, but comes down only when the deletion succeeds; after a
     * 404 or a 500 it stays up.
     */
    method Delete(req: DeleteRequest, failing: set<Command>) returns (status: Status)
      requires Valid()
      modifies this
      ensures Valid()
      ensures status == BadRequest <==> !DeleteFieldsPresent(req)
      ensures status == NotFound <==> DeleteFieldsPresent(req) && ClientDir(req.name, req.instanceId) !in old(host.clients)
      ensures status == BadRequest || status == NotFound ==> host == old(host) && trace == old(trace) && pending == old(pending)
      ensures DeleteFieldsPresent(req) && ClientDir(req.name, req.instanceId) in old(host.clients) ==>
                (var plan := DeletePlan(req);
                 var k := FirstFailure(plan, failing);
                 && trace == old(trace) + Issued(plan, failing)
                 && host == Perform(old(host), Completed(plan, failing))
                 && status == (if k == |plan| then Ok else Failed(CommandFailed(plan[k])))
                 && pending == old(pending) + (if k == |plan| then [StartManagerIfIdle] else []))
      ensures status == Ok ==> WasDeleted(old(host), host, req)
      ensures activeRequests == old(activeRequests) + (if status == BadRequest || status == Ok then 0 else 1)
    {
      if !DeleteFieldsPresent(req) {
        return BadRequest;
      }
      activeRequests := activeRequests + 1;
      var dir := ClientDir(req.name, req.instanceId);
      if dir !in host.clients {
        return NotFound;
      }
      status := Deregister(req, failing);
      if status == Ok {
        activeRequests := activeRequests - 1;
        pending := pending + [StartManagerIfIdle];
      }
    }

    /**
     * Delete with the counter brought back down on every path that raised it
     * (a `finally` around everything after the increment).
     */
    method DeleteBalanced(req: DeleteRequest, failing: set<Command>) returns (status: Status)
      requires Valid()
      modifies this
      ensures Valid()
      ensures status == BadRequest <==> !DeleteFieldsPresent(req)
      ensures status == NotFound <==> DeleteFieldsPresent(req) && ClientDir(req.name, req.instanceId) !in old(host.clients)
      ensures status == BadRequest || status == NotFound ==> host == old(host) && trace == old(trace) && pending == old(pending)
      ensures DeleteFieldsPresent(req) && ClientDir(req.name, req.instanceId) in old(host.clients) ==>
                (var plan := DeletePlan(req);
                 var k := FirstFailure(plan, failing);
                 && trace == old(trace) + Issued(plan, failing)
                 && host == Perform(old(host), Completed(plan, failing))
                 && status == (if k == |plan| then Ok else Failed(CommandFailed(plan[k])))
                 && pending == old(pending) + (if k == |plan| then [StartManagerIfIdle] else []))
      ensures status == Ok ==> WasDeleted(old(host), host, req)
      ensures activeRequests == old(activeRequests)
    {
      if !DeleteFieldsPresent(req) {
        return BadRequest;
      }
      activeRequests := activeRequests + 1;
      var dir := ClientDir(req.name, req.instanceId);
      if dir !in host.clients {
        activeRequests := activeRequests - 1;
        return NotFound;
      }
      status := Deregister(req, failing);
      activeRequests := activeRequests - 1;
      if status == Ok {
        pending := pending + [StartManagerIfIdle];
      }
    }

    /**
     * `POST /clientes/bot-conextion`: read-only; counts the entries of
     * `bot_sessions/` in `cliente_<id>` (0 when it is missing) and reports
     * connected when there are more than one.
     */
    method BotConnection(req: ClientRequest) returns (status: Status, session: Option<Connection>)
      ensures status == BadRequest <==> !ClientFieldsPresent(req)
      ensures status == NotFound <==> ClientFieldsPresent(req) && LegacyDir(req.id) !in host.clients
      ensures status == Ok <==> session.Some?
      ensures status == Ok || status == BadRequest || status == NotFound
      ensures session.Some? ==>
                && LegacyDir(req.id) in host.clients
                && (session.value == Connected <==> SessionCount(host.clients[LegacyDir(req.id)]) >= 2)
    {
      if !ClientFieldsPresent(req) {
        return BadRequest, None;
      }
      var dir := LegacyDir(req.id);
      if dir !in host.clients {
        return NotFound, None;
      }
      var sessionCount := SessionCount(host.clients[dir]);
      return Ok, Some(SessionStatus(sessionCount));
    }

    /**
     * One `xargs -I {} pm2 <verb> {}` pass: every name gets the command, in
     * order, whether or not an earlier one failed; `allOk` is false when any
     * failed (xargs then exits with an error).
     */
    method ForEachBot(verb: string, names: seq<string>, failing: set<Command>) returns (allOk: bool)
      requires verb == "stop" || verb == "start"
      modifies this`host, this`trace
      ensures trace == old(trace) + Each(verb, names)
      ensures allOk == NoneFail(Each(verb, names), failing)
      ensures host.clients == old(host.clients) && host.template == old(host.template) && host.saved == old(host.saved)
      ensures Names(host.procs) == Names(old(host.procs))
      ensures forall m :: StatusOf(host.procs, m) ==
                if m in names && Pm2(verb, m) !in failing && m in Names(old(host.procs))
                then Some(if verb == "stop" then Stopped else Online)
                else StatusOf(old(host.procs), m)
    {
      ghost var h0 := host;
      allOk := true;
      var i := 0;
      while i < |names|
        invariant 0 <= i <= |names|
        invariant trace == old(trace) + Each(verb, names[..i])
        invariant allOk == NoneFail(Each(verb, names[..i]), failing)
        invariant PassHost(h0, host, verb, names[..i], failing)
      {
        var c := Pm2(verb, names[i]);
        PassHostNext(h0, host, verb, names[..i], names[i], failing);
        var ok := Exec(c, failing);
        assert names[..i + 1] == names[..i] + [names[i]];
        assert Each(verb, names[..i + 1]) == Each(verb, names[..i]) + [c];
        NoneFailSnoc(Each(verb, names[..i]), c, failing);
        allOk := allOk && ok;
        i := i + 1;
      }
      assert names[..i] == names;
    }

    /**
     * `POST /clientes/rebot-pm2-all`: stop every bot process listed by
     * `pm2 ls`, then (only when every stop succeeded) list them again and
     * start every one.
     */
    method RebootAll(failing: set<Command>) returns (status: Status)
      requires Valid()
      modifies this`host, this`trace
      ensures Valid()
      ensures var names := ListedBots(old(host.procs));
              var stops := Each("stop", names);
              && trace == old(trace) + (if NoneFail(stops, failing) then RebootTrace(names) else stops)
              && status == (if !NoneFail(stops, failing) then Failed(PassFailed("stop"))
                            else if !NoneFail(Each("start", names), failing) then Failed(PassFailed("start"))
                            else Ok)
      ensures host.clients == old(host.clients) && host.saved == old(host.saved) && Names(host.procs) == Names(old(host.procs))
      ensures forall m :: m !in ListedBots(old(host.procs)) ==> StatusOf(host.procs, m) == StatusOf(old(host.procs), m)
      ensures status == Ok ==> forall m :: m in ListedBots(old(host.procs)) ==> StatusOf(host.procs, m) == Some(Online)
    {
      ghost var p0 := host.procs;
      var names := ListedBots(host.procs);
      var stopped := ForEachBot("stop", names, failing);
      if !stopped {
        return Failed(PassFailed("stop"));
      }
      ghost var p1 := host.procs;
      var again := ListedBots(host.procs);
      assert again == names;
      var started := ForEachBot("start", again, failing);
      assert trace == old(trace) + RebootTrace(names);
      if !started {
        return Failed(PassFailed("start"));
      }
      forall m
        ensures StatusOf(host.procs, m) == if m in names then Some(Online) else StatusOf(p0, m)
      {
        if m in names {
          var j :| 0 <= j < |names| && names[j] == m;
          assert Each("start", names)[j] == Pm2("start", m);
          assert m in Names(p1);
        }
      }
      status := Ok;
    }

    /**
     * `POST /clientes/pm2-max-memory`: for every line of the bot listing, run
     * `start-pm2.sh` in `cliente_<tenant>` when that script exists, skip the
     * item otherwise, and stop at the first script that fails.
     */
    method ApplyMaxMemory(failing: set<Command>) returns (status: Status)
      requires Valid()
      modifies this`host, this`trace
      ensures Valid()
      ensures var plan := ScriptPlan(old(host.clients), ListedItems(old(host.procs)));
              var k := FirstFailure(plan, failing);
              && trace == old(trace) + Issued(plan, failing)
              && status == (if k == |plan| then Ok else Failed(CommandFailed(plan[k])))
      ensures host == old(host)
    {
      var processes := ListedItems(host.procs);
      status := StartScripts(processes, failing);
    }

    /** The loop of the max-memory handler over the listed items. */
    method StartScripts(processes: seq<string>, failing: set<Command>) returns (status: Status)
      modifies this`host, this`trace
      ensures var plan := ScriptPlan(old(host.clients), processes);
              var k := FirstFailure(plan, failing);
              && trace == old(trace) + Issued(plan, failing)
              && status == (if k == |plan| then Ok else Failed(CommandFailed(plan[k])))
      ensures host == old(host)
    {
      ghost var clients := host.clients;
      ghost var step := item => ScriptStep(clients, item);
      ghost var plan := Concat(step, processes);
      ghost var t0 := trace;
      ghost var done: seq<Command> := [];
      var i := 0;
      while i < |processes|
        invariant 0 <= i <= |processes|
        invariant done == Concat(step, processes[..i])
        invariant trace == t0 + done
        invariant NoneFail(done, failing)
        invariant host == old(host)
      {
        ConcatNext(step, processes, i);
        var ok := RunScriptFor(processes[i], failing);
        if !ok {
          ConcatStopsAt(step, processes, i, failing);
          return Failed(CommandFailed(RunStartScript(ScriptDir(processes[i]), ScriptArg(processes[i]))));
        }
        NoneFailAppend(done, step(processes[i]), failing);
        done := done + step(processes[i]);
        i := i + 1;
      }
      assert processes[..i] == processes;
      RunsThrough(plan, failing);
      status := Ok;
    }

    /**
     * The body of the max-memory loop for one listed item: run
     * `bash ./start-pm2.sh bot-<tenant>` in `cliente_<tenant>` when the script
     * is there, and skip the item otherwise.
     */
    method RunScriptFor(processItem: string, failing: set<Command>) returns (ok: bool)
      modifies this`host, this`trace
      ensures trace == old(trace) + ScriptStep(host.clients, processItem)
      ensures ok == NoneFail(ScriptStep(host.clients, processItem), failing)
      ensures host == old(host)
    {
      var processName := TenantOf(processItem);
      var clientPath := ScriptDir(processItem);
      if clientPath in host.clients && host.clients[clientPath].startScript {
        var c := RunStartScript(clientPath, BotMarker + processName);
        ok := Exec(c, failing);
        assert ScriptStep(host.clients, processItem) == [c];
        assert NoneFail([c], failing) == (c !in failing) by {
          assert [c][0] == c;
        }
      } else {
        ok := true;
        assert ScriptStep(host.clients, processItem) == [];
        assert trace == old(trace) + [];
      }
    }

    /**
     * One pending callback fires, 5 seconds after it was set: the manager is
     * started unless the callback waits for idleness and the counter is not
     * zero. Starting `gestor_clientes` restarts this very process, so the
     * counter is back at 0 and every other pending callback is lost. The
     * callback has no `try`, so a failing start throws out of it and ends
     * the service process instead.
     */
    method FireTimer(failing: set<Command>) returns (started: bool)
      requires Valid() && pending != []
      modifies this`host, this`trace, this`pending, this`exited, this`activeRequests
      ensures started == (old(pending)[0] == StartManager || old(activeRequests) == 0)
      ensures trace == old(trace) + (if started then [Pm2("start", ManagerName)] else [])
      ensures host == if started && Pm2("start", ManagerName) !in failing then Apply(old(host), Pm2("start", ManagerName)) else old(host)
      ensures exited <==> started && Pm2("start", ManagerName) in failing
      ensures pending == if started then [] else old(pending)[1..]
      ensures activeRequests == if started then 0 else old(activeRequests)
      ensures !exited ==> Valid()
    {
      var timer := pending[0];
      pending := pending[1..];
      started := timer == StartManager || activeRequests == 0;
      if started {
        var ok := Exec(Pm2("start", ManagerName), failing);
        pending := [];
        activeRequests := 0;
        exited := !ok;
      }
    }
  }
}

=== FILE: Naming.dfy ===
/**
 * How the service derives directory names and process-supervisor (PM2)
 * names from request fields, and the session heuristic of
 * `/clientes/bot-conextion`.
 *
 * Two naming schemes coexist in the service. Create and change-status use the
 * directory `cliente_<id>_<instance_id>`, delete uses
 * `cliente_<name>_<instance_id>`, and all three use the process name
 * `api-bot-<name>-<instance_id>`. Reset, bot-conextion and the max-memory pass
 * use `cliente_<id>` and `bot-<name>`.
 */
module Naming {
  import opened Text
  import opened Requests

  /** The name of the manager's own supervised process. */
  const ManagerName := "gestor_clientes"

  /** The prefix of every client directory. */
  const ClientPrefix := "cliente_"

  /** `cliente_${id}_${instance_id}`: an instance directory under the clients base path. */
  function ClientDir(id: JsValue, instanceId: JsValue): string {
    ClientPrefix + Render(id) + "_" + Render(instanceId)
  }

  /** `api-bot-${name}-${instance_id}`: the PM2 name of an instance. */
  function ProcessName(name: JsValue, instanceId: JsValue): string {
    "api-bot-" + Render(name) + "-" + Render(instanceId)
  }

  /** `cliente_${id}`: the directory reset and bot-conextion look for. */
  function LegacyDir(id: JsValue): string {
    "cliente_" + Render(id)
  }

  /** `bot-${name}`: the PM2 name reset stops and starts. */
  function LegacyProcessName(name: JsValue): string {
    "bot-" + Render(name)
  }

  /** The pattern `grep 'bot-'` selects process names by. */
  const BotMarker := "bot-"

  /** A process name the `grep 'bot-'` of the bulk handlers keeps. */
  predicate IsBotName(n: string) {
    IndexOf(n, BotMarker) < |n|
  }

  /** The names `grep 'bot-'` keeps, in their order. */
  function BotFilter(ns: seq<string>): (r: seq<string>)
    ensures forall n :: n in r <==> n in ns && IsBotName(n)
  {
    if ns == [] then []
    else BotFilter(ns[..|ns| - 1]) + (if IsBotName(ns[|ns| - 1]) then [ns[|ns| - 1]] else [])
  }

  /** `processItem.replace('bot-', '')`: the tenant part of a listed process name. */
  function TenantOf(item: string): string {
    RemoveFirst(item, BotMarker)
  }

  /** `cliente_${processName}`: the directory the max-memory pass looks in. */
  function ScriptDir(item: string): string {
    ClientPrefix + TenantOf(item)
  }

  /** `bot-${processName}`: the argument the max-memory pass gives `start-pm2.sh`. */
  function ScriptArg(item: string): string {
    BotMarker + TenantOf(item)
  }

  datatype Connection = Connected | Disconnected

  /** The heuristic: more than one session artifact means the bot is authenticated. */
  function SessionStatus(sessionCount: int): Connection {
    if sessionCount > 1 then Connected else Disconnected
  }

  /** Reset and bot-conextion never find the directory create made for the same id. */
  lemma LegacyDirIsNotClientDir(id: JsValue, instanceId: JsValue)
    ensures LegacyDir(id) != ClientDir(id, instanceId)
  {
    assert |LegacyDir(id)| < |ClientDir(id, instanceId)|;
  }

  /**
   * Delete looks for `cliente_<name>_<instance_id>`: it finds the directory
   * create made for the same instance exactly when the name renders as the id.
   */
  lemma DeleteDirIsCreateDir(name: JsValue, id: JsValue, instanceId: JsValue)
    ensures ClientDir(name, instanceId) == ClientDir(id, instanceId) <==> Render(name) == Render(id)
  {
    if ClientDir(name, instanceId) == ClientDir(id, instanceId) {
      SameInstanceDir(Render(name), Render(id), Render(instanceId));
    }
  }

  lemma SameInstanceDir(a: string, b: string, x: string)
    requires "cliente_" + a + "_" + x == "cliente_" + b + "_" + x
    ensures a == b
  {
    var d := "cliente_" + a + "_" + x;
    assert |a| == |b|;
    assert a == d[8..8 + |a|];
    assert b == ("cliente_" + b + "_" + x)[8..8 + |b|];
  }

  /**
   * Distinct identities get distinct directories as long as the rendered id
   * holds no '_'; `ClientDirCollision` shows why that condition is needed.
   */
  lemma {:induction false} ClientDirInjective(id1: JsValue, i1: JsValue, id2: JsValue, i2: JsValue)
    requires '_' !in Render(id1) && '_' !in Render(id2)
    requires ClientDir(id1, i1) == ClientDir(id2, i2)
    ensures Render(id1) == Render(id2) && Render(i1) == Render(i2)
  {
    SplitAtUnderscore(Render(id1), Render(i1), Render(id2), Render(i2));
  }

  lemma {:induction false} SplitAtUnderscore(a: string, x: string, b: string, y: string)
    requires '_' !in a && '_' !in b
    requires "cliente_" + a + "_" + x == "cliente_" + b + "_" + y
    ensures a == b && x == y
  {
    var d := "cliente_" + a + "_" + x;
    var tail := d[8..];
    assert tail == a + "_" + x;
    assert tail == b + "_" + y;
    UnderscoreAfter(a, x);
    UnderscoreAfter(b, y);
    assert a == tail[..|a|] == b;
    assert x == tail[|a| + 1..] == y;
  }

  lemma UnderscoreAfter(a: string, rest: string)
    requires '_' !in a
    ensures IndexOf(a + "_" + rest, "_") == |a|
  {
    var s := a + "_" + rest;
    assert forall j :: 0 <= j < |a| ==> s[j] == a[j];
    assert s[|a|..][0] == '_';
    IndexOfAt(s, "_", |a|);
  }

  /** Two tenants whose ids and instance ids split differently around '_' share one directory. */
  lemma ClientDirCollision()
    ensures ClientDir(Str("a_b"), Str("c")) == ClientDir(Str("a"), Str("b_c"))
  {
  }

  /** Every process the service registers is one the bulk handlers select. */
  lemma {:induction false} ProcessNamesAreBotNames(name: JsValue, instanceId: JsValue)
    ensures IsBotName(ProcessName(name, instanceId))
    ensures IsBotName(LegacyProcessName(name))
  {
    ApiBotIsBotName(Render(name), Render(instanceId));
    MarkedIsBotName("", Render(name), 0);
    assert "" + BotMarker + Render(name) == LegacyProcessName(name);
  }

  lemma {:induction false} ApiBotIsBotName(n: string, i: string)
    ensures IsBotName("api-bot-" + n + "-" + i)
  {
    assert "api-bot-" + n + "-" + i == "api-" + BotMarker + (n + "-" + i);
    MarkedIsBotName("api-", n + "-" + i, 4);
  }

  /** A name with `bot-` right after a prefix of length `k` is a bot name. */
  lemma {:induction false} MarkedIsBotName(prefix: string, rest: string, k: nat)
    requires |prefix| == k
    ensures IsBotName(prefix + BotMarker + rest)
  {
    var p := prefix + BotMarker + rest;
    assert p[k..][..4] == BotMarker;
    IndexOfBound(p, BotMarker, k);
  }

  /** The bulk handlers never select the manager's own process. */
  lemma ManagerIsNotBotName()
    ensures !IsBotName(ManagerName)
  {
    assert 'b' !in ManagerName;
    IndexOfMissingHead(ManagerName, BotMarker);
  }

  /** The max-memory pass maps `bot-X` to the directory `cliente_X` and the script argument `bot-X`. */
  lemma ScriptTargetsOfLegacyName(x: string)
    ensures ScriptDir(BotMarker + x) == "cliente_" + x
    ensures ScriptArg(BotMarker + x) == BotMarker + x
  {
    var s := BotMarker + x;
    assert s[0..4] == BotMarker;
    IndexOfAt(s, BotMarker, 0);
    assert s[4..] == x;
  }

  /**
   * For a name of the `api-bot-` scheme the first `bot-` is not at the start:
   * the max-memory pass looks in `cliente_api-<name>-<instance_id>`, not in
   * the directory create made for that bot (`ScriptDirIsNoClientDir` says when
   * no create makes it at all).
   */
  lemma {:induction false} ScriptDirOfProcessName(name: JsValue, instanceId: JsValue)
    ensures ScriptDir(ProcessName(name, instanceId)) == "cliente_api-" + Render(name) + "-" + Render(instanceId)
  {
    ApiBotDir(Render(name), Render(instanceId));
  }

  /**
   * When the bot's rendered name and instance id hold no '_', no create makes
   * the directory the max-memory pass derives from its process name: every
   * create directory has a '_' after `cliente_`.
   */
  lemma ScriptDirIsNoClientDir(name: JsValue, instanceId: JsValue, id: JsValue, otherInstance: JsValue)
    requires '_' !in Render(name) && '_' !in Render(instanceId)
    ensures ScriptDir(ProcessName(name, instanceId)) != ClientDir(id, otherInstance)
  {
    ScriptDirOfProcessName(name, instanceId);
    NoUnderscoreDir(Render(name), Render(instanceId), Render(id), Render(otherInstance));
  }

  lemma NoUnderscoreDir(n: string, i: string, a: string, x: string)
    requires '_' !in n && '_' !in i
    ensures "cliente_api-" + n + "-" + i != ClientPrefix + a + "_" + x
  {
    var t := "api-" + n + "-" + i;
    assert "api-" == ['a', 'p', 'i', '-'];
    assert '_' !in t;
    var d := ClientPrefix + a + "_" + x;
    assert d[8..][|a|] == '_';
    assert "cliente_api-" + n + "-" + i == ClientPrefix + t;
  }

  lemma {:induction false} ApiBotDir(n: string, i: string)
    ensures ClientPrefix + TenantOf("api-bot-" + n + "-" + i) == "cliente_api-" + n + "-" + i
  {
    var rest := n + "-" + i;
    assert "api-bot-" + n + "-" + i == "api-bot-" + rest;
    ApiBotTenant(rest);
    assert ClientPrefix + ("api-" + rest) == "cliente_api-" + n + "-" + i;
  }

  lemma {:induction false} ApiBotTenant(rest: string)
    ensures TenantOf("api-bot-" + rest) == "api-" + rest
  {
    var p := "api-bot-" + rest;
    assert p[0] == 'a' && p[1] == 'p' && p[2] == 'i' && p[3] == '-';
    assert p[4..8] == BotMarker;
    IndexOfAt(p, BotMarker, 4);
    assert p[..4] == "api-" && p[8..] == rest;
  }
}

=== FILE: Requests.dfy ===
/**
 * What a handler reads from a JSON request body, and the field checks every
 * handler makes before touching the filesystem or the process supervisor.
 */
module Requests {
  import opened Text

  /**
   * A field of a request body after destructuring: absent fields are
   * `undefined`. Numbers are the integer ones (see README for what is left out).
   */
  datatype JsValue = Undefined | Null | Bool(b: bool) | Num(n: int) | Str(s: string)

  /** JavaScript truthiness: `!v` is false exactly for these values. */
  predicate Truthy(v: JsValue) {
    match v
    case Undefined => false
    case Null => false
    case Bool(b) => b
    case Num(n) => n != 0
    case Str(s) => s != ""
  }

  /** `${v}`: how a field is written into a path, a process name or a `.env` value. */
  function Render(v: JsValue): string {
    match v
    case Undefined => "undefined"
    case Null => "null"
    case Bool(b) => if b then "true" else "false"
    case Num(n) => Decimal(n)
    case Str(s) => s
  }

  /** Only the empty string renders as nothing; in particular a present field never does. */
  lemma RenderEmpty(v: JsValue)
    ensures Render(v) == "" <==> v == Str("")
    ensures Truthy(v) ==> |Render(v)| > 0
  {
  }

  datatype CreateRequest = CreateRequest(id: JsValue, name: JsValue, email: JsValue, port: JsValue, instanceId: JsValue, webhook: JsValue)
  datatype ChangeStatusRequest = ChangeStatusRequest(id: JsValue, name: JsValue, command: JsValue, instanceId: JsValue)
  /** The body of `/clientes/reset` and `/clientes/bot-conextion`. */
  datatype ClientRequest = ClientRequest(id: JsValue, name: JsValue)
  datatype DeleteRequest = DeleteRequest(name: JsValue, instanceId: JsValue)

  predicate CreateFieldsPresent(r: CreateRequest) {
    Truthy(r.id) && Truthy(r.name) && Truthy(r.email) && Truthy(r.port) && Truthy(r.instanceId) && Truthy(r.webhook)
  }

  predicate ChangeStatusFieldsPresent(r: ChangeStatusRequest) {
    Truthy(r.id) && Truthy(r.name) && Truthy(r.command) && Truthy(r.instanceId)
  }

  predicate ClientFieldsPresent(r: ClientRequest) {
    Truthy(r.id) && Truthy(r.name)
  }

  predicate DeleteFieldsPresent(r: DeleteRequest) {
    Truthy(r.name) && Truthy(r.instanceId)
  }
}

=== FILE: Scenarios.dfy ===
/**
 * Request sequences against one manager that show what the deletion counter
 * does to the deferred start of `gestor_clientes`.
 */
module Scenarios {
  import opened Wrappers
  import opened Requests
  import opened Naming
  import opened Effects
  import opened Gestor

  /** One client, `a` instance `1`, whose bot is online. */
  function OneClient(): (h: Host)
    ensures ClientDir(Str("a"), Str("1")) in h.clients
    ensures ClientDir(Str("x"), Str("9")) !in h.clients
  {
    assert ClientDir(Str("a"), Str("1")) == "cliente_a_1";
    assert ClientDir(Str("x"), Str("9")) == "cliente_x_9";
    Host(Workspace(None, None, false), map["cliente_a_1" := Workspace(None, None, false)], [Proc("api-bot-a-1", Online)], [])
  }

  /**
   * A delete of a missing client raises the counter and never lowers it;
   * a later delete that goes through leaves it at 1, so its timer finds
   * deletions still "in progress" and `gestor_clientes` is not started.
   */
  method LeakedCounter() returns (started: bool)
    ensures !started
  {
    var m := new ClientManager(OneClient());
    var missing := m.Delete(DeleteRequest(Str("x"), Str("9")), {});
    assert missing == NotFound;
    var req := DeleteRequest(Str("a"), Str("1"));
    RunsThrough(DeletePlan(req), {});
    var deleted := m.Delete(req, {});
    assert deleted == Ok && m.activeRequests == 1;
    started := m.FireTimer({});
  }

  /** The same requests with the counter lowered on every path: the timer starts `gestor_clientes`. */
  method BalancedCounter() returns (started: bool)
    ensures started
  {
    var m := new ClientManager(OneClient());
    var missing := m.DeleteBalanced(DeleteRequest(Str("x"), Str("9")), {});
    assert missing == NotFound;
    var req := DeleteRequest(Str("a"), Str("1"));
    RunsThrough(DeletePlan(req), {});
    var deleted := m.DeleteBalanced(req, {});
    assert deleted == Ok && m.activeRequests == 0;
    started := m.FireTimer({});
  }

  /**
   * The leaked count lasts only until the manager restarts: a create's timer
   * starts `gestor_clientes` whatever the counter says, the restarted process
   * counts from 0, and the next delete that goes through starts it again.
   */
  method RestartClearsCounter() returns (started: bool)
    ensures started
  {
    var m := new ClientManager(OneClient());
    var missing := m.Delete(DeleteRequest(Str("x"), Str("9")), {});
    assert missing == NotFound && m.activeRequests == 1;
    var create := CreateRequest(Str("b"), Str("b"), Str("e"), Str("3001"), Str("2"), Str("w"));
    assert ClientDir(Str("b"), Str("2")) == "cliente_b_2";
    assert CreateFieldsPresent(create);
    RunsThrough(CreatePlan(m.host.template, create), {});
    var created := m.CreateClient(create, {});
    assert created == Ok && m.pending == [StartManager];
    assert "cliente_a_1" in m.host.clients by {
      assert "cliente_a_1" in m.host.clients - {"cliente_b_2"};
    }
    ApplyPm2(m.host, "start", ManagerName);
    var restarted := m.FireTimer({});
    assert restarted && m.activeRequests == 0 && m.pending == [];
    started := DeleteThenFire(m);
  }

  /** A delete of client `a` instance `1` that goes through, then its timer, on a manager whose counter is 0. */
  method DeleteThenFire(m: ClientManager) returns (started: bool)
    requires m.Valid() && m.activeRequests == 0 && m.pending == []
    requires "cliente_a_1" in m.host.clients
    modifies m
    ensures started
  {
    var req := DeleteRequest(Str("a"), Str("1"));
    assert ClientDir(Str("a"), Str("1")) == "cliente_a_1";
    RunsThrough(DeletePlan(req), {});
    var deleted := m.Delete(req, {});
    assert deleted == Ok && m.activeRequests == 0;
    started := m.FireTimer({});
  }
}

=== FILE: Text.dfy ===
/**
 * String helpers the service relies on through JavaScript's built-ins:
 * `split("\n")`, `join("\n")`, `trim`, `indexOf`, `replace` with a string pattern,
 * and the decimal rendering of an integer inside a template literal.
 */
module Text {

  /** True when `p` is a prefix of `s`. */
  predicate StartsWith(s: string, p: string) {
    |p| <= |s| && s[..|p|] == p
  }

  /**
   * The characters a JavaScript regular expression treats as line
   * terminators: where `^` and `$` match under the `m` flag, and what `.`
   * refuses to match.
   */
  predicate IsLineTerminator(c: char) {
    c == '\n' || c == '\r' || c == '\U{2028}' || c == '\U{2029}'
  }

  predicate NoLineTerminator(s: string) {
    forall i :: 0 <= i < |s| ==> !IsLineTerminator(s[i])
  }

  /** Text whose only line terminator is '\n' (no "\r\n" endings, no U+2028/U+2029). */
  predicate LfOnly(s: string) {
    forall i :: 0 <= i < |s| ==> s[i] == '\n' || !IsLineTerminator(s[i])
  }

  /** `s.split("\n")`: the pieces between the '\n's, read one character at a time; never empty. */
  function Split(s: string): (ls: seq<string>)
    ensures |ls| >= 1
  {
    if s == [] then [""]
    else
      var r := Split(s[1..]);
      if s[0] == '\n' then [""] + r else [[s[0]] + r[0]] + r[1..]
  }

  /** `ls.join("\n")`. */
  function Join(ls: seq<string>): string {
    if |ls| == 0 then "" else if |ls| == 1 then ls[0] else ls[0] + "\n" + Join(ls[1..])
  }

  /** Joining a line in front of nonempty lines. */
  lemma {:induction false} JoinCons(x: string, t: seq<string>)
    requires |t| >= 1
    ensures Join([x] + t) == x + "\n" + Join(t)
  {
    assert ([x] + t)[0] == x && ([x] + t)[1..] == t;
  }

  /** Joining lines whose first one is extended in front extends the joined text in front. */
  lemma {:induction false} JoinExtendFirst(x: string, ls: seq<string>)
    requires |ls| >= 1
    ensures Join([x + ls[0]] + ls[1..]) == x + Join(ls)
  {
    if |ls| == 1 {
      assert [x + ls[0]] + ls[1..] == [x + ls[0]];
    } else {
      JoinCons(x + ls[0], ls[1..]);
    }
  }

  /** Splitting and joining again gives back the text. */
  lemma {:induction false} JoinSplit(s: string)
    ensures Join(Split(s)) == s
  {
    if s != [] {
      var r := Split(s[1..]);
      JoinSplit(s[1..]);
      if s[0] == '\n' {
        JoinCons("", r);
      } else {
        JoinExtendFirst([s[0]], r);
      }
      assert s == [s[0]] + s[1..];
    }
  }

  /** A first piece without '\n' stays in front of the first line. */
  lemma {:induction false} SplitPrefix(x: string, rest: string)
    requires '\n' !in x
    ensures Split(x + rest) == [x + Split(rest)[0]] + Split(rest)[1..]
  {
    if x == [] {
      assert x + rest == rest && x + Split(rest)[0] == Split(rest)[0];
    } else {
      assert forall c :: c in x[1..] ==> c in x;
      SplitPrefix(x[1..], rest);
      var s := x + rest;
      assert s[0] == x[0] && s[1..] == x[1..] + rest;
      assert [x[0]] + (x[1..] + Split(rest)[0]) == x + Split(rest)[0];
    }
  }

  /** Joining lines that hold no '\n' and splitting again gives back the lines. */
  lemma {:induction false} SplitJoin(ls: seq<string>)
    requires |ls| >= 1
    requires forall k :: 0 <= k < |ls| ==> '\n' !in ls[k]
    ensures Split(Join(ls)) == ls
  {
    if |ls| == 1 {
      SplitPrefix(ls[0], "");
      assert ls[0] + "" == ls[0] && ls[0] + Split("")[0] == ls[0];
    } else {
      var tail := ls[1..];
      var rest := "\n" + Join(tail);
      SplitJoin(tail);
      assert rest[0] == '\n' && rest[1..] == Join(tail);
      assert Split(rest) == [""] + tail;
      SplitPrefix(ls[0], rest);
      assert Join(ls) == ls[0] + rest;
      assert ls[0] + "" == ls[0];
      assert ls == [ls[0]] + tail;
    }
  }

  /** Joining one more line appends a '\n' and that line. */
  lemma {:induction false} JoinSnoc(ls: seq<string>, x: string)
    requires |ls| >= 1
    ensures Join(ls + [x]) == Join(ls) + "\n" + x
  {
    if |ls| == 1 {
      assert ls + [x] == [ls[0], x];
    } else {
      assert (ls + [x])[1..] == ls[1..] + [x];
      JoinSnoc(ls[1..], x);
    }
  }

  /**
   * The characters `String.prototype.trim` removes: JavaScript's white space
   * (tab, vertical tab, form feed, space, no-break space, the byte order mark
   * and the other space separators) and its line terminators.
   */
  predicate IsTrimSpace(c: char) {
    || c == '\t' || c == '\U{000B}' || c == '\U{000C}' || c == ' ' || c == '\U{00A0}' || c == '\U{FEFF}'
    || c == '\U{1680}' || ('\U{2000}' <= c <= '\U{200A}') || c == '\U{202F}' || c == '\U{205F}' || c == '\U{3000}'
    || IsLineTerminator(c)
  }

  /** `s` without its leading white space. */
  function TrimStart(s: string): string {
    if s != [] && IsTrimSpace(s[0]) then TrimStart(s[1..]) else s
  }

  /** `s` without its trailing white space. */
  function TrimEnd(s: string): string {
    if s != [] && IsTrimSpace(s[|s| - 1]) then TrimEnd(s[..|s| - 1]) else s
  }

  /** `s.trim()`. */
  function Trim(s: string): string {
    TrimEnd(TrimStart(s))
  }

  /** Trimming the front drops white space only, and leaves a suffix of `s` that is empty or starts with a character `trim` keeps. */
  lemma {:induction false} TrimStartSuffix(s: string)
    ensures var r := TrimStart(s);
            && |r| <= |s| && r == s[|s| - |r|..]
            && (forall k :: 0 <= k < |s| - |r| ==> IsTrimSpace(s[k]))
            && (r == [] || !IsTrimSpace(r[0]))
  {
    if s != [] && IsTrimSpace(s[0]) {
      TrimStartSuffix(s[1..]);
      var r := TrimStart(s[1..]);
      forall k | 1 <= k < |s| - |r|
        ensures IsTrimSpace(s[k])
      {
        assert s[k] == s[1..][k - 1];
      }
    }
  }

  /** Trimming the end drops white space only, and leaves a prefix of `s` that is empty or ends with a character `trim` keeps. */
  lemma {:induction false} TrimEndPrefix(s: string)
    ensures var r := TrimEnd(s);
            && |r| <= |s| && r == s[..|r|]
            && (forall k :: |r| <= k < |s| ==> IsTrimSpace(s[k]))
            && (r == [] || !IsTrimSpace(r[|r| - 1]))
  {
    if s != [] && IsTrimSpace(s[|s| - 1]) {
      var init := s[..|s| - 1];
      TrimEndPrefix(init);
      var r := TrimEnd(init);
      forall k | |r| <= k < |s| - 1
        ensures IsTrimSpace(s[k])
      {
        assert s[k] == init[k];
      }
      assert r == init[..|r|] == s[..|r|];
    }
  }

  /**
   * `trim` gives the piece `s[i..j]` of `s`: everything before `i` and from
   * `j` on is white space, and the piece neither starts nor ends with white
   * space (when it is empty, `s` is all white space).
   */
  lemma TrimEnds(s: string)
    ensures var t := Trim(s);
            var i := |s| - |TrimStart(s)|;
            && 0 <= i <= i + |t| <= |s|
            && t == s[i..i + |t|]
            && (forall k :: 0 <= k < i ==> IsTrimSpace(s[k]))
            && (forall k :: i + |t| <= k < |s| ==> IsTrimSpace(s[k]))
            && (t == [] || (!IsTrimSpace(t[0]) && !IsTrimSpace(t[|t| - 1])))
  {
    var u := TrimStart(s);
    var t := TrimEnd(u);
    var i := |s| - |u|;
    TrimStartSuffix(s);
    TrimEndPrefix(u);
    assert u == s[i..];
    assert t == s[i..i + |t|];
    forall k | i + |t| <= k < |s|
      ensures IsTrimSpace(s[k])
    {
      assert s[k] == u[k - i];
    }
    if t != [] {
      assert t[0] == u[0];
    }
  }

  /** Text that neither starts nor ends with white space, followed by one '\n', trims to itself. */
  lemma {:induction false} TrimNewline(s: string)
    requires s != [] && !IsTrimSpace(s[0]) && !IsTrimSpace(s[|s| - 1])
    ensures Trim(s + "\n") == s
  {
    var t := s + "\n";
    assert t[0] == s[0];
    assert TrimStart(t) == t;
    assert t[|t| - 1] == '\n' && t[..|t| - 1] == s;
    assert TrimEnd(t) == TrimEnd(s);
  }

  /** Index of the first occurrence of `pat` in `s`, or |s| when there is none. */
  function IndexOf(s: string, pat: string): (i: nat)
    requires pat != []
    ensures i <= |s|
    ensures i < |s| ==> i + |pat| <= |s|
    decreases |s|
  {
    if |s| < |pat| then |s|
    else if StartsWith(s, pat) then 0
    else 1 + IndexOf(s[1..], pat)
  }

  /** `IndexOf` finds an occurrence of `pat`, and none starts before it. */
  lemma {:induction false} IndexOfSpec(s: string, pat: string)
    requires pat != []
    ensures IndexOf(s, pat) < |s| ==> StartsWith(s[IndexOf(s, pat)..], pat)
    ensures forall j :: 0 <= j < IndexOf(s, pat) ==> !StartsWith(s[j..], pat)
    decreases |s|
  {
    if |s| >= |pat| && !StartsWith(s, pat) {
      IndexOfSpec(s[1..], pat);
      var i := IndexOf(s[1..], pat);
      assert s[1..][i..] == s[i + 1..];
      forall j | 0 <= j < i + 1 ensures !StartsWith(s[j..], pat) {
        if j > 0 {
          assert s[1..][j - 1..] == s[j..];
        }
      }
    }
  }

  /** The first position where `pat` starts is where `IndexOf` finds it. */
  lemma {:induction false} IndexOfAt(s: string, pat: string, i: nat)
    requires pat != [] && i <= |s|
    requires StartsWith(s[i..], pat)
    requires forall j :: 0 <= j < i ==> s[j] != pat[0] || !StartsWith(s[j..], pat)
    ensures IndexOf(s, pat) == i
    decreases i
  {
    if i > 0 {
      assert s[0] != pat[0] || !StartsWith(s[0..], pat);
      assert s[0..] == s;
      assert s[1..][i - 1..] == s[i..];
      forall j | 0 <= j < i - 1 ensures s[1..][j] != pat[0] || !StartsWith(s[1..][j..], pat) {
        assert s[1..][j..] == s[j + 1..];
      }
      IndexOfAt(s[1..], pat, i - 1);
    } else {
      assert s[0..] == s;
    }
  }

  /** An occurrence of `pat` at `i` bounds what `IndexOf` finds. */
  lemma {:induction false} IndexOfBound(s: string, pat: string, i: nat)
    requires pat != [] && i <= |s|
    requires StartsWith(s[i..], pat)
    ensures IndexOf(s, pat) <= i
    decreases i
  {
    if i > 0 && !StartsWith(s, pat) {
      assert s[1..][i - 1..] == s[i..];
      IndexOfBound(s[1..], pat, i - 1);
    }
  }

  /** A text without the first character of `pat` does not contain it. */
  lemma {:induction false} IndexOfMissingHead(s: string, pat: string)
    requires pat != [] && pat[0] !in s
    ensures IndexOf(s, pat) == |s|
    decreases |s|
  {
    if |s| >= |pat| {
      assert s[..|pat|][0] == s[0] != pat[0];
      assert forall c :: c in s[1..] ==> c in s;
      IndexOfMissingHead(s[1..], pat);
    }
  }

  /** `s.replace(pat, "")`: the first occurrence of `pat` is cut out, if there is one. */
  function RemoveFirst(s: string, pat: string): (r: string)
    requires pat != []
  {
    var i := IndexOf(s, pat);
    if i < |s| then s[..i] + s[i + |pat|..] else s
  }

  /** A digit character. */
  function Digit(d: nat): (c: char)
    requires d < 10
    ensures '0' <= c <= '9'
  {
    ('0' as int + d) as char
  }

  /** The decimal digits of `n`, most significant first, without leading zeros. */
  function NatDigits(n: nat): (r: string)
    ensures |r| >= 1
    ensures forall i :: 0 <= i < |r| ==> '0' <= r[i] <= '9'
    ensures r[0] == '0' ==> n == 0
  {
    if n < 10 then [Digit(n)] else NatDigits(n / 10) + [Digit(n % 10)]
  }

  /** How an integer `Number` is written inside a template literal. */
  function Decimal(n: int): (r: string)
    ensures |r| >= 1
    ensures forall i :: 0 <= i < |r| ==> r[i] == '-' || '0' <= r[i] <= '9'
  {
    if n < 0 then "-" + NatDigits(-n) else NatDigits(n)
  }
}

=== FILE: Wrappers.dfy ===
/** The usual optional value, used where the service reads something that may be absent. */
module Wrappers {
  datatype Option<+T> = None | Some(value: T)
}
